=== FILE: README.md ===
# callie-php core, modelled in Dafny

callie-php is a small PHP framework for shared hosting. This project models
its core as pure Dafny functions and proves properties about them. Each
part below is written against the PHP code and follows its branches and
constants.

- **QueryBuilder** (`core/Database.php`): a fluent builder over one table,
  modelled as an immutable `Query` record.
  - The table, select-list, order-by and insert/update column names are
    sanitized.
  - `where` conditions and their bound parameters are kept in the same order.
  - `orderBy`, `limit`, `offset` and `paginate` each set their part of the query.
  - The renderers build the SQL text and parameter list for `get`, `first`,
    `count`, `insert`, `update` and `delete`.
  - The central invariant: every rendered statement holds exactly as many `?`
    placeholders as it binds parameters.
- **Router** (`core/Router.php`):
  - Group prefixes are scoped and restored after the group's callback.
  - Route templates are compiled: `:name` becomes a named `[^/]+` capture.
    The `#^…$#` anchoring is modelled with PCRE's `$`, which also matches
    before a final newline.
  - Dispatch strips the deployment directory from the path, picks the first
    route whose method and pattern match, and binds the named captures.
    When no route matches, it returns `404 "Not Found: <path>"`.
- **Security** (`core/Security.php`):
  - base64url encoding. PHP's `base64_encode` and its non-strict
    `base64_decode` are modelled exactly.
  - HS256 JSON Web Tokens from `generateToken` and `verifyToken`.
  - The fixed-window rate limiter's window arithmetic.
  - The recursive `htmlspecialchars(…, ENT_QUOTES)` sanitizer.
- **Env** (`core/Env.php`):
  - The `.env` reader, including how `file()` splits lines and skips empty
    ones, the comment rule, and `explode('=', …, 2)`.
  - Quote stripping, with the last assignment winning.
  - The load-once guard, the load that an empty variable name stops (PHP 8's
    `putenv` rejects it), and `Env::get`.

Modules: `Wrappers` (Option), `Seqs` (PHP `explode`/`implode`/filtering),
`Text` (`trim`, `strtoupper`, integer ↔ decimal), `Php` (PHP values and
ordered arrays, `(string)` casts, PHP 8 numeric strings, loose `<`),
`QueryBuilder`, `Router`, `Base64`, `Security`, `RateLimit`, `Sanitize`, `Env`.

The side effects are passed in as parameters:

- Clock readings are `int` parameters. `generateToken` reads the clock
  twice, so it takes two readings.
- The `.env` file is `Option<string>`, where `None` means the file is missing.
- `getenv` is a function parameter.
- The stored rate-limit window is `Option<Window>`.
- `$_SERVER['SCRIPT_NAME']`'s directory is a string parameter.
- HMAC-SHA256 and the JSON codec are caller-supplied functions (`Security.Primitives`).

The model follows the PHP code in these places:

- `LIMIT 0` and `OFFSET 0` are left out of the SQL, because the code tests
  the value for truthiness.
- A negative limit or offset is rendered as is.
- `verifyToken` compares `exp` with PHP's loose `<`. A token without `exp`
  is rejected at every clock reading except 0. A token whose `exp` is an
  array is never expired.
- A request whose method differs is skipped like a non-matching route.
- `Env::get` never returns its default (see Findings).

## Model

| member | source | states |
|---|---|---|
| QueryBuilder.Table | core/Database.php:82-86 | the table name keeps only `[A-Za-z0-9_]`; a fresh builder selects `*` and has no conditions, parameters, order, limit or offset; it satisfies the placeholder invariant |
| QueryBuilder.TableDropsNonIdentifier | core/Database.php:85 | characters outside `[A-Za-z0-9_]` are removed wherever they occur, and the identifier characters around them are kept in order |
| QueryBuilder.TableKeepsIdentifier | core/Database.php:85 | a name that is already an identifier is used unchanged |
| QueryBuilder.TableIdempotent | core/Database.php:85 | sanitizing an already sanitized table name changes nothing |
| QueryBuilder.Select | core/Database.php:88-95 | `select()` with no fields leaves the query as it was; otherwise it changes only the column list and keeps the placeholder invariant |
| QueryBuilder.SelectRoundTrip | core/Database.php:90-93 | splitting the rendered column list at `,` and trimming gives back exactly the sanitized fields, in order, so `implode(', ', …)` loses nothing |
| QueryBuilder.Where | core/Database.php:106-114 | `where` appends one condition `field op ?` and one bound parameter; when the value is null, op is `=` and the bound parameter is the operator argument; all else is unchanged |
| QueryBuilder.WhereValid | core/Database.php:112-113 | after `where`, the placeholder count equals the parameter count if and only if neither the field nor the operator text contains `?` |
| QueryBuilder.WhereTwoArgumentsIsEquality | core/Database.php:106-110 | for every non-null `v`, `where(f, v)` builds the same query as `where(f, '=', v)` |
| QueryBuilder.WhereNullValueBindsOperator | core/Database.php:107-110 | `where(f, op, null)` becomes `f = ?` and binds the operator string as the value |
| QueryBuilder.WhereAll | core/Database.php:99-103 | `where([k => v, …])` appends one `k = ?` condition and one parameter `v` per entry, in array order |
| QueryBuilder.WhereAllValid | core/Database.php:99-103 | the array form keeps the placeholder invariant whenever no key contains `?` |
| QueryBuilder.OrderBy | core/Database.php:117-122 | the order column is an identifier; the direction is DESC exactly for the sixteen case spellings of "desc", otherwise ASC; nothing else changes |
| QueryBuilder.Limit | core/Database.php:124-127 | sets the limit and nothing else |
| QueryBuilder.Offset | core/Database.php:129-132 | sets the offset and nothing else |
| QueryBuilder.Paginate | core/Database.php:134-139 | limit = perPage; offset = (page-1)·perPage, and a page below 1 counts as page 1; the offset is non-negative for a non-negative page size |
| QueryBuilder.PaginateTiles | core/Database.php:134-139 | consecutive pages start exactly perPage rows apart |
| QueryBuilder.PaginateDefault | core/Database.php:134-137 | `paginate()` with its default arguments (page 1, 10 per page) asks for rows 0 to 9 |
| QueryBuilder.ShapeCallsKeepValid | core/Database.php:88-139 | `select`, `limit`, `offset` and `paginate` keep the placeholder invariant |
| QueryBuilder.Get | core/Database.php:141-158 | the SELECT statement starts with `SELECT <cols> FROM <table>` and binds exactly the query's parameters; with no conditions or order, and a limit and offset that are absent or zero, nothing follows that head |
| QueryBuilder.GetLayout | core/Database.php:141-158 | after the head come the WHERE, ORDER BY, LIMIT and OFFSET clauses in that order; WHERE is present exactly when there are conditions, ORDER BY exactly when an order is set, LIMIT and OFFSET exactly when set to a non-zero value |
| QueryBuilder.WhereClauseReads | core/Database.php:144-146 | the WHERE clause is empty exactly when there are no conditions; otherwise it starts with ` WHERE ` and the rest, split at ` AND `, gives back the conditions in order, provided each condition ends in its `?` and holds no ` AND ` |
| QueryBuilder.OrderClauseReads | core/Database.php:148-150 | the ORDER BY clause is empty exactly when no order is set; otherwise, for a column without spaces, it splits at spaces into `ORDER`, `BY`, the column and `DESC` or `ASC` |
| QueryBuilder.NumberClausesRead | core/Database.php:152-158 | LIMIT and OFFSET are present exactly when non-zero, and the number after the keyword parses back to the value set |
| QueryBuilder.GetPlaceholders | core/Database.php:141-162 | the SELECT text has as many `?` as it binds parameters |
| QueryBuilder.First | core/Database.php:169-173 | `first()` is `get()` on the query with limit 1 and nothing else changed |
| QueryBuilder.FirstPlaceholders | core/Database.php:169-171 | the query `first()` runs still satisfies the invariant, and its SQL has as many `?` as parameters |
| QueryBuilder.CountRows | core/Database.php:175-182 | `count()` starts with `SELECT COUNT(*) as count FROM <table>`, followed by exactly the WHERE clause (nothing without conditions), and binds exactly the query's parameters |
| QueryBuilder.CountIgnoresShape | core/Database.php:175-179 | `count()` is unaffected by select, orderBy and paginate: only the table and conditions matter |
| QueryBuilder.CountPlaceholders | core/Database.php:175-182 | the COUNT text has as many `?` as it binds parameters |
| QueryBuilder.Values | core/Database.php:188 | the bound values are the data's values in array order |
| QueryBuilder.Insert | core/Database.php:186-198 | INSERT binds exactly the data's values |
| QueryBuilder.InsertColumns | core/Database.php:187-198 | the text between the first `(` and the next `)` is the column list: empty for no data, otherwise split at `,` and trimmed it is exactly the data's keys with everything outside `[a-zA-Z0-9_]` removed, in data order (for a table name without `(`) |
| QueryBuilder.InsertPlaceholders | core/Database.php:186-202 | the INSERT text has one `?` per column, and that equals the number of bound values |
| QueryBuilder.Update | core/Database.php:209-224 | UPDATE binds the data values first, then the condition parameters only when there are conditions |
| QueryBuilder.SetListSplits | core/Database.php:213-219 | the joined SET list splits at `,` into one item per data entry, item i being its sanitized key followed by ` = ?` (led by a space after the first) |
| QueryBuilder.UpdateSetList | core/Database.php:209-222 | UPDATE is `UPDATE <table> SET `, then the SET list, then exactly the WHERE clause; the SET list is empty for no data and otherwise splits into the `key = ?` items in data order |
| QueryBuilder.UpdatePlaceholders | core/Database.php:209-228 | for a query satisfying the invariant, the UPDATE binds data values followed by condition parameters, and has as many `?` as that list |
| QueryBuilder.Delete | core/Database.php:235-240 | DELETE starts with `DELETE FROM <table>`, is exactly that without conditions, and binds exactly the query's parameters |
| QueryBuilder.DeleteMatchesCount | core/Database.php:235-240 | `delete()` targets the rows `count()` counts: after their heads, both statements carry the same WHERE text and the same parameters |
| QueryBuilder.DeletePlaceholders | core/Database.php:235-244 | the DELETE text has as many `?` as it binds parameters |
| Text.UpperIsDesc | core/Database.php:119 | `strtoupper(d) === 'DESC'` holds exactly for four-character d spelling d/e/s/c in any case |
| Router.IdentRun | core/Router.php:25 | the run of `[a-zA-Z0-9_]` a `:name` token takes is the longest identifier prefix |
| Router.CompileSource | core/Router.php:24-27 | compilation loses nothing: the template can be read back from the compiled pattern |
| Router.CompileCanonical | core/Router.php:24-27 | every compiled template is canonical: literal pieces are non-empty and hold no `:` followed by a name character, two literals never sit side by side, and a capture name is a whole `[a-zA-Z0-9_]` run, never followed by another name character |
| Router.SourceCompile | core/Router.php:24-27 | every canonical pattern is the compilation of its own template text, so each `:name` in a template is recognised as a capture and the compiler produces exactly the canonical patterns |
| Router.CompileNames | core/Router.php:25-26 | every capture name is a non-empty `[a-zA-Z0-9_]` run |
| Router.MatchSound | core/Router.php:25-30 | a match yields one capture per parameter; each capture is a non-empty, slash-free segment; filling them into the template gives the path, up to PCRE `$`'s final newline |
| Router.MatchComplete | core/Router.php:25-30 | every path made by filling non-empty, slash-free segments into the template matches, and so does that path followed by one final newline (PCRE `$`) |
| Router.Bind | core/Router.php:71-77 | the bound parameter map has exactly the pattern's group names as keys |
| Router.BindAt | core/Router.php:71-77 | with distinct names, each name maps to its own capture |
| Router.AddAppends | core/Router.php:21-37 | registering appends one route with the given method and handler; its template is the current prefix followed by the path; earlier routes and the prefix are unchanged |
| Router.RunDeclares | core/Router.php:9-14 | running registrations appends their declarations; a group's prefix applies to everything inside it and is dropped afterwards |
| Router.NestedGroups | core/Router.php:9-14 | nested groups concatenate their prefixes, and a registration after the groups gets no prefix |
| Router.StripBase | core/Router.php:60-63 | the script directory is removed when it is a textual prefix and is not `/`; an empty result becomes `/`; otherwise the path is kept |
| Router.StripBasePrefixed | core/Router.php:60-61 | for a script directory other than `/`, a path made of the directory and a non-empty rest strips to exactly that rest |
| Router.StripBaseIsTextual | core/Router.php:60-61 | stripping is textual, not by path segment: under `/api`, `/apiary` becomes `ary` |
| Router.FirstMatch | core/Router.php:65-68 | the chosen route matches method and pattern, and every earlier route does not; no result means no route matches |
| Router.Dispatch | core/Router.php:65-88 | dispatch either hands off to a registered route or fails with 404 and `Not Found: ` plus the stripped path |
| Router.DispatchFirstMatch | core/Router.php:65-68 | route i handles the request if and only if it matches and no earlier route does |
| Router.DispatchNotFound | core/Router.php:88 | the 404 is returned if and only if no route matches the method and the stripped path |
| Router.DispatchParams | core/Router.php:68-77 | the handler's parameters are keyed by the route's group names; each value is a non-empty, slash-free segment; filling them back into the template gives the stripped request path, up to the one final newline PCRE `$` accepts |
| Router.CompileUsersId | core/Router.php:24-27 | `/users/:id` compiles to the literal `/users/` followed by an `id` capture |
| Router.UsersMeExample | core/Router.php:65-77 | with `/users/me` declared before `/users/:id`, GET `/users/me` goes to the first route with no parameters |
| Router.UsersIdExample | core/Router.php:65-88 | GET `/users/42` goes to `/users/:id` with id = "42"; POST on the same path is a 404 |
| Router.UsersNestedExample | core/Router.php:65-88 | a capture never spans a `/`: `/users/42/posts` is a 404 |
| Base64.AlphabetBijection | core/Security.php:182 | the 64-character alphabet and the sextet values are inverse |
| Base64.Encode | core/Security.php:182 | output length is 4·⌈n/3⌉ and every character is in the alphabet or `=` |
| Base64.DecodeEncode | core/Security.php:182-187 | decoding an encoding gives back the bytes |
| Base64.DecodeSkips | core/Security.php:187 | non-strict decoding ignores every character outside the alphabet, wherever it occurs |
| Security.TrimPadding | core/Security.php:182 | `rtrim(…, '=')` removes exactly the trailing run of `=` |
| Security.UrlEncodeChars | core/Security.php:181-183 | base64url output is the sextets written in the URL alphabet, with no `+`, `/` or `=` |
| Security.UrlDecodeEncode | core/Security.php:181-188 | base64UrlDecode inverts base64UrlEncode for all byte strings |
| Security.Claims | core/Security.php:86-87 | the signed claims carry `iat` = first clock reading and `exp` = second reading + lifetime; every other claim is the caller's |
| Security.GenerateTokenSegments | core/Security.php:82-96 | a generated token splits at `.` into exactly three base64url segments: header, claims, and the signature over the first two |
| Security.VerifyToken | core/Security.php:102-124 | null unless there are three segments, the signature matches, and `exp` is not loosely below now; otherwise the decoded payload |
| Security.VerifyGenerated | core/Security.php:82-124 | a freshly generated token verifies to its claims exactly until exp is passed, provided the JSON codec round-trips |
| Security.DefaultLifetime | core/Security.php:82-87 | with the default lifetime of 86400 s, a token made at clock t verifies exactly while now ≤ t + 86400 |
| Security.ForgedSignatureRejected | core/Security.php:110-115 | any signature segment other than the recomputed one is rejected |
| Security.SplitFourOrMore | core/Security.php:105-106 | a `.` inside the signature segment makes more than three segments |
| Security.ExpiredRejected | core/Security.php:117-121 | a token whose integer `exp` is below now is rejected |
| Php.NumericExtendsParseInt | core/Security.php:119 | every `-?[0-9]+` string is a PHP numeric string with the same value |
| Php.LessThanIntOfDecimal | core/Security.php:119 | a string holding the decimal form of an int compares with `<` exactly as that int does |
| Php.PaddedAndSignedNumeric | core/Security.php:119 | `" 5"`, `"5 "` and `"+5"` are numeric strings with value 5 |
| Php.FractionNumeric | core/Security.php:119 | `"4.5"` is a numeric string with value 4.5 |
| Php.ExponentNumeric | core/Security.php:119 | `"1e3"` is a numeric string with value 1000 |
| Php.LeadingNumericIsNot | core/Security.php:119 | `"5abc"` is not a numeric string |
| Php.LessThanIntNumericForms | core/Security.php:119 | padded, signed, fractional and exponent strings compare with an int by value, while `"5abc"` compares as a string, so `"5abc" < 10` is false |
| Security.LooseExpiry | core/Security.php:117-121 | under PHP's loose `<`, a missing `exp` is rejected unless now is 0, and an array `exp` never expires |
| Security.UnsetSecretIsEmpty | core/Security.php:12-14 | as written, with `JWT_SECRET` set nowhere, tokens are signed with the empty key |
| Security.Secret | core/Security.php:12-14 | the signing key is `JWT_SECRET` from `.env`, else from the environment, else the built-in default |
| RateLimit.Advance | core/Security.php:62-66 | a missing window, or one older than the duration, restarts at count 1 now; otherwise the count grows by one and the start is kept |
| RateLimit.Step | core/Security.php:62-76 | a request is refused exactly when the updated count exceeds the limit; Retry-After is duration − elapsed, and lies between 0 and the duration when the duration is non-negative and the window did not start in the future |
| RateLimit.ReplayWithin | core/Security.php:60-72 | within one window, request i is refused exactly when the count reaches past the limit, with the matching Retry-After |
| RateLimit.FixedWindow | core/Security.php:50-76 | from no window, the first `limit` requests inside one window pass and all later ones are refused |
| RateLimit.DefaultWindow | core/Security.php:50-76 | with the default arguments, the first 100 requests within 60 s of the first pass and the rest are refused |
| RateLimit.WindowExpires | core/Security.php:62-63 | after the window has expired, the next request starts a fresh window |
| RateLimit.TwoPerMinute | core/Security.php:50-76 | with limit 2 per 60 s, requests at 0, 10, 20 and 61 s are allowed, allowed, refused with Retry-After 40, and allowed |
| Sanitize.Escape | core/Security.php:177 | escaped text contains none of `"`, `'`, `<`, `>` |
| Sanitize.UnescapeEscape | core/Security.php:177 | escaping loses nothing: decoding the five entities gives back the string |
| Sanitize.SanitizeShape | core/Security.php:170-178 | sanitizing keeps the array structure and keys, and escapes every string leaf |
| Sanitize.SanitizeRecoverable | core/Security.php:170-178 | decoding every leaf of the result gives the input with each scalar leaf turned into its string form |
| Env.Lines | core/Env.php:16 | the lines read are non-empty and contain no newline |
| Env.LinesJoin | core/Env.php:16 | a file made of non-empty lines joined by `\n` reads back exactly those lines |
| Env.LinesCRLF | core/Env.php:16 | a CRLF file ending in a newline reads back exactly its lines, without the `\r` |
| Env.ParseSkipsComments | core/Env.php:18 | a line is skipped if and only if its trimmed text starts with `#` |
| Env.ParseFirstEquals | core/Env.php:20-27 | a line splits at its first `=`; the name is trimmed; the value is trimmed and unquoted |
| Env.ParseNoEquals | core/Env.php:20-22 | a line without `=` assigns the empty string to its trimmed text |
| Env.UnquoteQuoted | core/Env.php:25-27 | one pair of surrounding double quotes is removed |
| Env.UnquoteKeepsUnquoted | core/Env.php:25-27 | a value not both starting and ending with `"` is kept as is |
| Env.ParseAssignment | core/Env.php:18-27 | `NAME="value"` assigns exactly `value` to `NAME` |
| Env.StoreLastWins | core/Env.php:29 | after loading, each name holds its last assignment in the file; names never assigned keep their earlier value |
| Env.Load | core/Env.php:9-35 | once loaded, or when the file is missing, nothing changes; otherwise the state becomes loaded exactly when every assignment has a non-empty name, since `putenv("=…")` throws in PHP 8 before `$loaded` is set |
| Env.FirstUnnamed | core/Env.php:17-31 | finds the first assignment with an empty name, every earlier one being named, and finds none exactly when all are named |
| Env.LoadAborts | core/Env.php:29-34 | an assignment to the empty name stops the load: the flag stays unset, and the data holds the assignments up to and including that one, with `""` mapped to its value |
| Env.BlankLineUnnamed | core/Env.php:16-22 | a non-empty line of blanks, which `FILE_SKIP_EMPTY_LINES` keeps, assigns "" to the empty name |
| Env.LeadingEqualsUnnamed | core/Env.php:20-27 | a line `=value` assigns the trimmed, unquoted value to the empty name |
| Env.LoadOnce | core/Env.php:10 | a second load after a successful one changes nothing, whatever file it is given |
| Env.MissingFileRetries | core/Env.php:12-14 | a load that finds no file does not set the flag, so a later load still reads its file, and is marked loaded exactly when all its names are non-empty |
| Env.LoadedWins | core/Env.php:9-39 | after loading, `get` returns the last assignment the load carried out for a name, ahead of the process environment; all of the file's assignments are carried out when every name is non-empty |
| Env.DefaultIgnored | core/Env.php:37-39 | as written, a key set nowhere yields `false`, never the caller's default |
| Env.Get | core/Env.php:37-39 | the value comes from `.env` data, else the environment, else the default |
| Env.GetAgrees | core/Env.php:37-39 | the corrected lookup agrees with the code wherever the key is set somewhere, and differs only by returning the default |
| Php.GetSet | core/Security.php:86-87 | array assignment sets that key and leaves every other key's value alone |
| Php.SetKeepsUnique | core/Security.php:86-87 | array assignment keeps keys unique |

## Left out

- PDO: the connection, the singleton, `query`/`raw`, executing statements and
  fetching rows are not modelled. The model covers SQL text and bound
  parameters only. Execution happens in the database.
- `QueryBuilder.Limit`, `QueryBuilder.Offset`: take the integer after PHP's
  `(int)` cast. String-to-integer coercion is not modelled.
- `QueryBuilder.Paginate`: pages and page sizes are integers. PHP's loose `<`
  on non-integer pages is not modelled.
- `QueryBuilder.Paginate`, `QueryBuilder.PaginateTiles`: integers are
  unbounded. In PHP, `($page - 1) * $perPage` past ±2^63 becomes a float, and
  the `(int)` cast in `offset()` then wraps it (page 10^18 with 10 per page
  gives a negative offset). The non-negative offset and the tiling hold only
  while the product fits in 64 bits.
- `Security.Claims`: `time() + $expiresIn` past 2^63 becomes a float in PHP.
  The model keeps it an exact integer.
- `RateLimit.Step`: the count, the elapsed time and Retry-After are unbounded
  integers. PHP's overflow to float past ±2^63 is not modelled.
- `QueryBuilder.WhereValid`: the field and operator of `where` are interpolated
  unsanitized. The invariant is proved only when they contain no `?`, which is
  exactly when it holds.
- Float values, as bound parameters, JSON numbers or sanitizer leaves, are not
  modelled. The value type has null, booleans, integers, strings and arrays.
- Router literal text is matched literally. The code passes it to PCRE, where
  regex metacharacters and a `#` would change or break the pattern.
- The 32-character PCRE limit on group names is not modelled. Longer names
  compile in the model.
- Running the handler and turning its exception into a 500 response
  (`core/Router.php:79-84`) depend on application code. Dispatch ends at the
  chosen route and its parameters.
- The `get`/`post`/`put`/`delete` shorthands are `Register` with that verb.
- Group callbacks are modelled as the list of registrations they make.
- HMAC-SHA256 and `json_encode`/`json_decode` are caller-supplied functions.
  The token round trip assumes JSON decodes what it encoded.
- `Security.VerifyToken`: numeric strings in `exp` are compared by their exact
  decimal value. PHP converts a non-integer or out-of-range numeric string to a
  float, so rounding and overflow to INF are not modelled.
- `hash_equals` is modelled as equality. Its constant timing is not
  observable here.
- `Security.ExpiryOf`: a string payload makes PHP 8 raise an error on
  `$payload['exp']`. The model treats it as rejection.
- `RateLimit.Step`: the window file (mkdir, read, write, md5 of the client
  address) and races between concurrent requests are not modelled.
- `RateLimit.Step`: the Retry-After header reads the clock again. The model
  uses one reading for the whole call.
- `cors`, `https`, `auth`, `hashPassword` and `verifyPassword` are left out.
  They are header I/O, request-halting exits and a password-hash library.
- `core/Context.php`, `core/Callie.php`, `index.php` and `routes.php` are not
  part of this model. They are response formatting, bootstrap and the
  application's own routes.
- `Env.Load`: the `$_ENV` and `putenv` writes are not modelled. The
  environment is the `getenv` parameter. `putenv` enters the model only
  through the `ValueError` it raises for an empty name. Nothing in the
  bootstrap catches that error, so the request ends there. The model returns
  the state at that point.
- `Env.Lines`: `file()` is modelled with only its `\n` line splitting. The
  `auto_detect_line_endings` mode is not modelled.
- `Sanitize.Escape`: strings are sequences of characters, so the empty result
  `htmlspecialchars` gives for invalid UTF-8 does not arise.

## Findings

| source | as written | input that shows it | evidently intended | confidence | as-written member | corrected member |
|---|---|---|---|---|---|---|
| core/Env.php:38 | `self::$data[$key] ?? getenv($key) ?? $default`: `getenv` returns `false`, not null, for an unset variable, so the second `??` never applies | a key absent from the `.env` data and from the process environment: `Env::get` returns `false` instead of the default | return `$default` when the key is set nowhere | high; not executed | Env.DefaultIgnored | Env.Get |
| core/Security.php:13 | `Env::get('JWT_SECRET', 'change-this-secret-in-production')` inherits that fallback, so the key is `false`, which HMAC uses as the empty string | `JWT_SECRET` set in neither `.env` nor the environment: tokens are signed and verified with the empty key | sign with the built-in default secret | high; not executed | Security.UnsetSecretIsEmpty | Security.Secret |

=== FILE: base64.dfy ===
/**
 * PHP's `base64_encode` (the alphabet and padding of section 4 of RFC 4648)
 * and its default, non-strict `base64_decode`, which skips every character
 * outside the alphabet (`=` included) and drops a final lone sextet.
 */
module Base64 {
  import opened Seqs

  type byte = x: int | 0 <= x < 256
  type Bytes = seq<byte>
  type sextet = x: int | 0 <= x < 64

  /** The characters of the base64 alphabet. */
  predicate InAlphabet(c: char)
  {
    ('A' <= c <= 'Z') || ('a' <= c <= 'z') || ('0' <= c <= '9') || c == '+' || c == '/'
  }

  /** The alphabet character for a sextet value. */
  function CharOf(v: sextet): (c: char)
    ensures InAlphabet(c)
  {
    if v < 26 then ('A' as int + v) as char
    else if v < 52 then ('a' as int + (v - 26)) as char
    else if v < 62 then ('0' as int + (v - 52)) as char
    else if v == 62 then '+'
    else '/'
  }

  /** The sextet value of an alphabet character. */
  function ValueOf(c: char): sextet
    requires InAlphabet(c)
  {
    if 'A' <= c <= 'Z' then c as int - 'A' as int
    else if 'a' <= c <= 'z' then c as int - 'a' as int + 26
    else if '0' <= c <= '9' then c as int - '0' as int + 52
    else if c == '+' then 62
    else 63
  }

  /** The alphabet is a bijection between 64 characters and the sextet values. */
  lemma AlphabetBijection(v: sextet, c: char)
    ensures ValueOf(CharOf(v)) == v
    ensures InAlphabet(c) ==> CharOf(ValueOf(c)) == c
  {
  }

  /** The sextets base64 writes for `b`: four per three bytes, and two or three for a one- or two-byte tail. */
  function Sextets(b: Bytes): (r: seq<sextet>)
    ensures |r| == |b| / 3 * 4 + (if |b| % 3 == 0 then 0 else |b| % 3 + 1)
  {
    if |b| == 0 then []
    else if |b| == 1 then [b[0] / 4, (b[0] % 4) * 16]
    else if |b| == 2 then [b[0] / 4, (b[0] % 4) * 16 + b[1] / 16, (b[1] % 16) * 4]
    else [b[0] / 4, (b[0] % 4) * 16 + b[1] / 16, (b[1] % 16) * 4 + b[2] / 64, b[2] % 64] + Sextets(b[3..])
  }

  /** The `=` characters that complete the last quantum. */
  function Padding(n: nat): string
  {
    if n % 3 == 1 then "==" else if n % 3 == 2 then "=" else ""
  }

  /** `base64_encode`. */
  function Encode(b: Bytes): (r: string)
    ensures |r| % 4 == 0 && |r| == (|b| + 2) / 3 * 4
    ensures forall i :: 0 <= i < |r| ==> InAlphabet(r[i]) || r[i] == '='
  {
    var body := MapSeq(Sextets(b), CharOf);
    MapSeqAt(Sextets(b), CharOf);
    body + Padding(|b|)
  }

  /** The sextet values of the alphabet characters of `s`, in order; every other character is skipped. */
  function Values(s: string): (r: seq<sextet>)
    ensures |r| <= |s|
  {
    if s == [] then []
    else if InAlphabet(s[0]) then [ValueOf(s[0])] + Values(s[1..])
    else Values(s[1..])
  }

  /** The three bytes a group of four sextets carries, each from two neighbouring sextets. */
  function Byte0(a: sextet, b: sextet): byte { a * 4 + b / 16 }
  function Byte1(b: sextet, c: sextet): byte { (b % 16) * 16 + c / 4 }
  function Byte2(c: sextet, d: sextet): byte { (c % 4) * 64 + d }

  /** Reassembles bytes from sextets; a trailing group of one sextet yields nothing. */
  function Unsextets(v: seq<sextet>): (r: Bytes)
    ensures |r| == |v| / 4 * 3 + (if |v| % 4 <= 1 then 0 else |v| % 4 - 1)
  {
    if |v| >= 4 then
      [Byte0(v[0], v[1]), Byte1(v[1], v[2]), Byte2(v[2], v[3])] + Unsextets(v[4..])
    else if |v| == 3 then [Byte0(v[0], v[1]), Byte1(v[1], v[2])]
    else if |v| == 2 then [Byte0(v[0], v[1])]
    else []
  }

  /** Non-strict `base64_decode`: never fails, ignores what is not in the alphabet. */
  function Decode(s: string): Bytes
  {
    Unsextets(Values(s))
  }

  lemma {:induction false} ValuesConcat(a: string, b: string)
    ensures Values(a + b) == Values(a) + Values(b)
  {
    if a == [] {
      assert a + b == b;
    } else {
      var ab := a + b;
      assert ab[0] == a[0];
      assert ab[1..] == a[1..] + b;
      ValuesConcat(a[1..], b);
      var rest := Values(a[1..]);
      var head := if InAlphabet(a[0]) then [ValueOf(a[0])] else [];
      assert Values(a) == head + rest;
      assert Values(ab) == head + (rest + Values(b));
      assert head + (rest + Values(b)) == (head + rest) + Values(b);
    }
  }

  lemma {:induction false} ValuesOfChars(v: seq<sextet>)
    ensures Values(MapSeq(v, CharOf)) == v
  {
    if v != [] {
      ValuesOfChars(v[1..]);
      AlphabetBijection(v[0], CharOf(v[0]));
    }
  }

  lemma ValuesOfPadding(n: nat)
    ensures Values(Padding(n)) == []
  {
  }

  /** One group of three bytes survives the trip through four sextets, and so do the short tail groups. */
  lemma GroupRoundTrip(x: byte, y: byte, z: byte)
    ensures Byte0(x / 4, (x % 4) * 16 + y / 16) == x
    ensures Byte1((x % 4) * 16 + y / 16, (y % 16) * 4 + z / 64) == y
    ensures Byte2((y % 16) * 4 + z / 64, z % 64) == z
    ensures Byte0(x / 4, (x % 4) * 16) == x
    ensures Byte1((x % 4) * 16 + y / 16, (y % 16) * 4) == y
  {
  }

  lemma {:induction false} UnsextetsSextets(b: Bytes)
    ensures Unsextets(Sextets(b)) == b
    decreases |b|
  {
    if |b| >= 3 {
      UnsextetsSextets(b[3..]);
      GroupRoundTrip(b[0], b[1], b[2]);
      var v := Sextets(b);
      assert v[4..] == Sextets(b[3..]);
      assert b == [b[0], b[1], b[2]] + b[3..];
    } else if |b| == 2 {
      GroupRoundTrip(b[0], b[1], 0);
    } else if |b| == 1 {
      GroupRoundTrip(b[0], 0, 0);
    }
  }

  /** Decoding what was encoded gives the bytes back. */
  lemma DecodeEncode(b: Bytes)
    ensures Decode(Encode(b)) == b
  {
    var body := MapSeq(Sextets(b), CharOf);
    assert Encode(b) == body + Padding(|b|);
    ValuesConcat(body, Padding(|b|));
    ValuesOfPadding(|b|);
    ValuesOfChars(Sextets(b));
    assert Values(Encode(b)) == Sextets(b);
    UnsextetsSextets(b);
  }

  /** The decoder skips foreign characters wherever they are: they do not change the result. */
  lemma DecodeSkips(a: string, junk: string, b: string)
    requires forall i :: 0 <= i < |junk| ==> !InAlphabet(junk[i])
    ensures Decode(a + junk + b) == Decode(a + b)
  {
    JunkValues(junk);
    ValuesConcat(a + junk, b);
    ValuesConcat(a, junk);
    ValuesConcat(a, b);
    assert Values(a + junk) == Values(a);
    assert a + junk + b == (a + junk) + b;
  }

  lemma {:induction false} JunkValues(junk: string)
    requires forall i :: 0 <= i < |junk| ==> !InAlphabet(junk[i])
    ensures Values(junk) == []
  {
    if junk != [] {
      JunkValues(junk[1..]);
    }
  }
}

=== FILE: env.dfy ===
/**
 * core/Env.php: the `.env` loader and lookup. The file system, `putenv` and
 * `$_ENV` are not modelled, except for the error `putenv` raises on an empty
 * name: the file's content (or its absence) and the process environment are
 * parameters.
 */
module Env {
  import opened Wrappers
  import opened Seqs
  import opened Text
  import opened Php

  // ---- lines --------------------------------------------------------------------

  /** `file()` with `FILE_IGNORE_NEW_LINES` drops a line's `\n` ending, and the `\r` of a `\r\n` ending. */
  function StripCR(line: string): (r: string)
  {
    if line != [] && line[|line| - 1] == '\r' then line[..|line| - 1] else line
  }

  predicate NonEmpty(line: string)
  {
    line != []
  }

  /**
   * The pieces of a file between newlines as `file()` returns them: every
   * piece that ended in `\n` loses a `\r` before it; the last piece, after
   * the last newline, is kept as it is.
   */
  function LineTexts(raw: seq<string>): (r: seq<string>)
    requires |raw| >= 1
    ensures |r| == |raw|
  {
    MapSeq(raw[..|raw| - 1], StripCR) + [raw[|raw| - 1]]
  }

  lemma LineTextsOf(front: seq<string>, last: string)
    ensures LineTexts(front + [last]) == MapSeq(front, StripCR) + [last]
  {
    assert (front + [last])[..|front|] == front;
  }

  /** Every line text is a piece or a piece shortened by one character. */
  lemma LineTextsNoNewline(raw: seq<string>)
    requires |raw| >= 1
    requires forall i :: 0 <= i < |raw| ==> '\n' !in raw[i]
    ensures forall i :: 0 <= i < |raw| ==> '\n' !in LineTexts(raw)[i]
  {
    var ended := raw[..|raw| - 1];
    MapSeqAt(ended, StripCR);
    var lines := LineTexts(raw);
    forall i | 0 <= i < |lines|
      ensures '\n' !in lines[i]
    {
      assert '\n' !in raw[i];
      assert lines[i] == raw[i] || lines[i] == raw[i][..|raw[i]| - 1];
    }
  }

  /**
   * `file($path, FILE_IGNORE_NEW_LINES | FILE_SKIP_EMPTY_LINES)`: the lines
   * without their endings, empty ones skipped.
   */
  function Lines(content: string): (r: seq<string>)
    ensures forall i :: 0 <= i < |r| ==> r[i] != [] && '\n' !in r[i]
  {
    var lines := LineTexts(Split(content, '\n'));
    LineTextsNoNewline(Split(content, '\n'));
    FilterKeeps(lines, NonEmpty);
    Filter(lines, NonEmpty)
  }

  /** A line as written in a file: not empty, and neither holding a newline nor ending in `\r`. */
  predicate PlainLine(l: string)
  {
    l != [] && '\n' !in l && l[|l| - 1] != '\r'
  }

  /** A file of plain lines separated by `\n` reads back as those lines. */
  lemma LinesJoin(lines: seq<string>)
    requires forall i :: 0 <= i < |lines| ==> PlainLine(lines[i])
    ensures Lines(Join(lines, "\n")) == lines
  {
    if lines == [] {
      assert Split([], '\n') == [[]];
      assert LineTexts([[]]) == [[]];
      assert Filter([[]], NonEmpty) == [];
    } else {
      SplitJoin(lines, '\n');
      var ended := lines[..|lines| - 1];
      MapSeqAt(ended, StripCR);
      assert MapSeq(ended, StripCR) == ended;
      FrontLast(lines);
      assert LineTexts(lines) == lines;
      FilterKeepsAll(lines, NonEmpty);
    }
  }

  /** `l` followed by a carriage return. */
  function WithCR(l: string): string
  {
    l + "\r"
  }

  /** A file of plain lines each ending in `\r\n` reads back as those lines, both characters dropped. */
  lemma LinesCRLF(lines: seq<string>)
    requires |lines| >= 1
    requires forall i :: 0 <= i < |lines| ==> PlainLine(lines[i])
    ensures Lines(Join(MapSeq(lines, WithCR), "\n") + "\n") == lines
  {
    var crs := MapSeq(lines, WithCR);
    CRLFSplit(lines);
    LineTextsOf(crs, []);
    CRLFStripped(lines);
    FilterSnocEmpty(lines);
  }

  /** The pieces between the newlines are the lines with their `\r`, then the empty text after the last newline. */
  lemma CRLFSplit(lines: seq<string>)
    requires |lines| >= 1
    requires forall i :: 0 <= i < |lines| ==> PlainLine(lines[i])
    ensures Split(Join(MapSeq(lines, WithCR), "\n") + "\n", '\n') == MapSeq(lines, WithCR) + [[]]
  {
    var crs := MapSeq(lines, WithCR);
    MapSeqAt(lines, WithCR);
    forall i | 0 <= i < |crs|
      ensures '\n' !in crs[i]
    {
      WithCRNoNewline(lines[i]);
    }
    SplitJoinTrailing(crs, '\n');
  }

  lemma WithCRNoNewline(l: string)
    requires '\n' !in l
    ensures '\n' !in WithCR(l)
  {
    assert forall k :: 0 <= k < |l| ==> WithCR(l)[k] == l[k];
  }

  /** The empty text after a final newline is skipped. */
  lemma FilterSnocEmpty(lines: seq<string>)
    requires forall i :: 0 <= i < |lines| ==> lines[i] != []
    ensures Filter(lines + [[]], NonEmpty) == lines
  {
    FilterConcat(lines, [[]], NonEmpty);
    FilterKeepsAll(lines, NonEmpty);
    assert Filter([[]], NonEmpty) == [];
    assert lines + [] == lines;
  }

  /** Dropping the `\r` again gives each line back. */
  lemma CRLFStripped(lines: seq<string>)
    requires forall i :: 0 <= i < |lines| ==> PlainLine(lines[i])
    ensures MapSeq(MapSeq(lines, WithCR), StripCR) == lines
  {
    var crs := MapSeq(lines, WithCR);
    MapSeqAt(lines, WithCR);
    MapSeqAt(crs, StripCR);
    forall i | 0 <= i < |crs|
      ensures StripCR(crs[i]) == lines[i]
    {
      assert crs[i] == lines[i] + "\r";
      assert crs[i][..|crs[i]| - 1] == lines[i];
    }
  }

  lemma {:induction false} FilterKeeps(lines: seq<string>, keep: string -> bool)
    requires forall i :: 0 <= i < |lines| ==> '\n' !in lines[i]
    ensures forall i :: 0 <= i < |Filter(lines, keep)| ==> '\n' !in Filter(lines, keep)[i]
  {
    if lines != [] {
      FilterKeeps(lines[1..], keep);
    }
  }

  /** A line whose trimmed form starts with `#`. */
  predicate IsComment(line: string)
  {
    StartsWith(Trim(line), "#")
  }

  /**
   * `list($name, $value) = explode('=', $line, 2)`: the text before the first
   * `=` and everything after it; with no `=` the value is missing, which `trim` turns into "".
   */
  function SplitFirst(line: string): (string, string)
  {
    match IndexOf(line, '=')
    case Some(i) => (line[..i], line[i + 1..])
    case None => (line, "")
  }

  /** Removes a pair of surrounding double quotes; a lone `"` becomes "". */
  function Unquote(v: string): string
  {
    if v != [] && v[0] == '"' && v[|v| - 1] == '"' then
      if |v| >= 2 then v[1..|v| - 1] else ""
    else v
  }

  /** The name and value a line assigns, or `None` for a comment. */
  function ParseLine(line: string): Option<(string, string)>
  {
    if IsComment(line) then None
    else
      var (name, value) := SplitFirst(line);
      Some((Trim(name), Unquote(Trim(value))))
  }

  /** Quoting is undone: a value written between double quotes reads back as written. */
  lemma UnquoteQuoted(v: string)
    ensures Unquote("\"" + v + "\"") == v
  {
    var q := "\"" + v + "\"";
    assert q[1..|q| - 1] == v;
  }

  /** Only a value that both starts and ends with `"` is changed. */
  lemma UnquoteKeepsUnquoted(v: string)
    requires v == [] || v[0] != '"' || v[|v| - 1] != '"'
    ensures Unquote(v) == v
  {
  }

  /**
   * A line splits on its first `=` only: everything after it, further `=`
   * included, is the value; both halves are trimmed.
   */
  lemma ParseFirstEquals(name: string, value: string)
    requires '=' !in name
    requires !IsComment(name + "=" + value)
    ensures ParseLine(name + "=" + value) == Some((Trim(name), Unquote(Trim(value))))
  {
    var line := name + "=" + value;
    IndexOfPrefix(name, value);
    assert line[..|name|] == name && line[|name| + 1..] == value;
  }

  lemma IndexOfPrefix(name: string, value: string)
    requires '=' !in name
    ensures IndexOf(name + "=" + value, '=') == Some(|name|)
  {
    var line := name + "=" + value;
    assert line[|name|] == '=';
    assert line[..|name|] == name;
  }

  /** A line without `=` assigns the empty string to its trimmed text. */
  lemma ParseNoEquals(line: string)
    requires '=' !in line
    requires !IsComment(line)
    ensures ParseLine(line) == Some((Trim(line), ""))
  {
    assert Trim("") == "";
  }

  /** A line is skipped exactly when its trimmed form starts with `#`. */
  lemma ParseSkipsComments(line: string)
    ensures ParseLine(line).None? <==> IsComment(line)
  {
  }

  lemma TrimTrimmed(s: string)
    requires Trimmed(s)
    ensures Trim(s) == s
  {
    assert [] + s + [] == s;
    TrimPadded([], s, []);
  }

  /** `NAME="value"` with a plain name reads back as that name and value, whatever the value holds. */
  lemma ParseAssignment(name: string, value: string)
    requires name != [] && Trimmed(name) && name[0] != '#' && '=' !in name
    ensures ParseLine(name + "=\"" + value + "\"") == Some((name, value))
  {
    var q := "\"" + value + "\"";
    var line := name + "=" + q;
    assert name + "=\"" + value + "\"" == line;
    assert line[0] == name[0] && line[|line| - 1] == '"';
    TrimTrimmed(line);
    assert !IsComment(line) by {
      assert line[..1] != "#";
    }
    ParseFirstEquals(name, q);
    TrimTrimmed(name);
    TrimTrimmed(q);
    UnquoteQuoted(value);
  }

  // ---- loading ------------------------------------------------------------------

  /** The loader's static state: whether a file was loaded, and the values read. */
  datatype State = State(loaded: bool, data: map<string, string>)

  const Initial: State := State(false, map[])

  /** The assignments of the lines, in order, comments left out. */
  function Assignments(lines: seq<string>): (r: seq<(string, string)>)
    ensures |r| <= |lines|
  {
    if lines == [] then []
    else
      match ParseLine(lines[0])
      case None => Assignments(lines[1..])
      case Some(a) => [a] + Assignments(lines[1..])
  }

  /** `self::$data[$name] = $value` for each assignment in turn. */
  function Store(data: map<string, string>, assigns: seq<(string, string)>): map<string, string>
    decreases |assigns|
  {
    if assigns == [] then data else Store(data[assigns[0].0 := assigns[0].1], assigns[1..])
  }

  /** The value the last assignment to `name` gives it, if any. */
  function LastValue(assigns: seq<(string, string)>, name: string): Option<string>
  {
    if assigns == [] then None
    else if assigns[|assigns| - 1].0 == name then Some(assigns[|assigns| - 1].1)
    else LastValue(assigns[..|assigns| - 1], name)
  }

  /**
   * Last one wins: after storing, a name holds the value of the last
   * assignment to it, and keeps its earlier value when nothing assigns it.
   */
  lemma {:induction false} StoreLastWins(data: map<string, string>, assigns: seq<(string, string)>, name: string)
    ensures LastValue(assigns, name).Some? ==> name in Store(data, assigns) && Store(data, assigns)[name] == LastValue(assigns, name).value
    ensures LastValue(assigns, name).None? ==>
      (name in Store(data, assigns) <==> name in data) && (name in data ==> Store(data, assigns)[name] == data[name])
    decreases |assigns|
  {
    if assigns != [] {
      var init := assigns[..|assigns| - 1];
      var last := assigns[|assigns| - 1];
      assert assigns == init + [last];
      StoreSnoc(data, init, last);
      StoreLastWins(data, init, name);
    }
  }

  lemma {:induction false} StoreSnoc(data: map<string, string>, assigns: seq<(string, string)>, a: (string, string))
    ensures Store(data, assigns + [a]) == Store(data, assigns)[a.0 := a.1]
    decreases |assigns|
  {
    if assigns == [] {
      assert [] + [a] == [a];
    } else {
      assert (assigns + [a])[1..] == assigns[1..] + [a];
      StoreSnoc(data[assigns[0].0 := assigns[0].1], assigns[1..], a);
    }
  }

  /** Every assignment has a non-empty name. */
  predicate AllNamed(assigns: seq<(string, string)>)
  {
    forall i :: 0 <= i < |assigns| ==> assigns[i].0 != []
  }

  /**
   * `putenv("$name=$value")` raises a `ValueError` in PHP 8 when its argument
   * starts with `=`, which is when the trimmed name is empty (a line of only
   * blanks, or `=value`). The position of the first such assignment, if any.
   */
  function FirstUnnamed(assigns: seq<(string, string)>): (r: Option<nat>)
    ensures r.None? <==> AllNamed(assigns)
    ensures r.Some? ==> r.value < |assigns| && assigns[r.value].0 == [] && AllNamed(assigns[..r.value])
  {
    if assigns == [] then None
    else if assigns[0].0 == [] then Some(0)
    else
      match FirstUnnamed(assigns[1..])
      case None => None
      case Some(i) =>
        assert assigns[..i + 1] == [assigns[0]] + assigns[1..][..i];
        Some(i + 1)
  }

  /** The first empty name is the one every earlier assignment lacks. */
  lemma {:induction false} FirstUnnamedAt(assigns: seq<(string, string)>, k: nat)
    requires k < |assigns| && assigns[k].0 == [] && AllNamed(assigns[..k])
    ensures FirstUnnamed(assigns) == Some(k)
  {
    if k > 0 {
      assert assigns[..k][0] == assigns[0];
      var before := assigns[1..][..k - 1];
      assert before == assigns[..k][1..];
      assert AllNamed(before) by {
        forall i | 0 <= i < k - 1
          ensures before[i].0 != []
        {
          assert assigns[..k][i + 1].0 != [];
        }
      }
      FirstUnnamedAt(assigns[1..], k - 1);
    }
  }

  /**
   * The assignments `load` carries out: all of them, or those up to and
   * including the one whose `putenv` throws, since `self::$data[$name]` is
   * written just before the call.
   */
  function Applied(assigns: seq<(string, string)>): seq<(string, string)>
  {
    match FirstUnnamed(assigns)
    case None => assigns
    case Some(k) => assigns[..k + 1]
  }

  /**
   * `Env::load($path)`, the file given by its content or `None` when it does
   * not exist: nothing happens once a file was loaded or when the file is
   * missing. Otherwise the assignments are stored in turn, and the state is
   * marked loaded unless an assignment with an empty name stopped the load
   * before `self::$loaded = true`.
   */
  function Load(s: State, file: Option<string>): (r: State)
    ensures s.loaded || file.None? ==> r == s
    ensures !s.loaded && file.Some? ==> (r.loaded <==> AllNamed(Assignments(Lines(file.value))))
  {
    if s.loaded then s
    else
      match file
      case None => s
      case Some(content) =>
        var assigns := Assignments(Lines(content));
        State(FirstUnnamed(assigns).None?, Store(s.data, Applied(assigns)))
  }

  /** Loading is done at most once: after a successful load, further loads change nothing. */
  lemma LoadOnce(s: State, f: Option<string>, g: Option<string>)
    requires Load(s, f).loaded
    ensures Load(Load(s, f), g) == Load(s, f)
  {
  }

  /** A missing file leaves the loader unloaded, so a later call still loads. */
  lemma MissingFileRetries(s: State, g: string)
    requires !s.loaded
    ensures Load(Load(s, None), Some(g)) == Load(s, Some(g))
    ensures Load(Load(s, None), Some(g)).loaded <==> AllNamed(Assignments(Lines(g)))
  {
  }

  /** A non-empty line of blanks assigns to the empty name. */
  lemma BlankLineUnnamed(line: string)
    requires line != [] && AllTrimChars(line)
    ensures ParseLine(line) == Some(([], []))
  {
    assert line + [] + [] == line;
    TrimPadded(line, [], []);
    assert Trim(line) == [];
    assert '=' !in line by {
      forall i | 0 <= i < |line|
        ensures line[i] != '='
      {
        assert IsTrimChar(line[i]);
      }
    }
    ParseNoEquals(line);
  }

  /** A line starting with `=` assigns to the empty name. */
  lemma LeadingEqualsUnnamed(value: string)
    ensures ParseLine("=" + value) == Some(([], Unquote(Trim(value))))
  {
    var line := "=" + value;
    LeadingEqualsNotComment(line);
    assert [] + "=" + value == line;
    ParseFirstEquals([], value);
    assert Trim([]) == [];
  }

  lemma LeadingEqualsNotComment(line: string)
    requires line != [] && line[0] == '='
    ensures !IsComment(line)
  {
    assert TrimLeft(line) == line;
    var t := Trim(line);
    assert t == TrimRight(line);
    assert t[..1] == line[..1];
  }

  /**
   * An assignment to the empty name stops the load: the flag stays unset,
   * the assignments before it and its own `self::$data[""]` write are kept,
   * and no later line is stored.
   */
  lemma LoadAborts(s: State, content: string, k: nat)
    requires !s.loaded
    requires k < |Assignments(Lines(content))| && Assignments(Lines(content))[k].0 == []
    requires AllNamed(Assignments(Lines(content))[..k])
    ensures !Load(s, Some(content)).loaded
    ensures Load(s, Some(content)).data == Store(s.data, Assignments(Lines(content))[..k + 1])
    ensures [] in Load(s, Some(content)).data && Load(s, Some(content)).data[[]] == Assignments(Lines(content))[k].1
  {
    var assigns := Assignments(Lines(content));
    var done := assigns[..k + 1];
    assert Applied(assigns) == done by {
      FirstUnnamedAt(assigns, k);
    }
    assert Load(s, Some(content)) == State(false, Store(s.data, done));
    assert LastValue(done, []) == Some(assigns[k].1) by {
      assert done[|done| - 1] == assigns[k];
    }
    StoreLastWins(s.data, done, []);
  }

  // ---- lookup -------------------------------------------------------------------

  /**
   * `Env::get($key, $default)` as the source writes it,
   * `self::$data[$key] ?? getenv($key) ?? $default`: `getenv` answers `false`
   * for an unset variable, and `??` only skips null, so the default is never reached.
   */
  function GetAsWritten(s: State, key: string, default: Value, getenv: string -> Option<string>): Value
  {
    if key in s.data then Str(s.data[key])
    else
      match getenv(key)
      case Some(v) => Str(v)
      case None => Bool(false)
  }

  /** As written, a key set nowhere reads as `false`, not as the default. */
  lemma DefaultIgnored(s: State, key: string, default: Value, getenv: string -> Option<string>)
    requires key !in s.data && getenv(key).None?
    ensures GetAsWritten(s, key, default, getenv) == Bool(false)
    ensures default != Bool(false) ==> GetAsWritten(s, key, default, getenv) != default
  {
  }

  /**
   * `Env::get` as intended: the loaded value, else the process environment's,
   * else the default.
   */
  function Get(s: State, key: string, default: Value, getenv: string -> Option<string>): (r: Value)
    ensures key in s.data ==> r == Str(s.data[key])
    ensures key !in s.data && getenv(key).Some? ==> r == Str(getenv(key).value)
    ensures key !in s.data && getenv(key).None? ==> r == default
  {
    if key in s.data then Str(s.data[key])
    else
      match getenv(key)
      case Some(v) => Str(v)
      case None => default
  }

  /** The two readings differ only for a key set nowhere. */
  lemma GetAgrees(s: State, key: string, default: Value, getenv: string -> Option<string>)
    ensures key in s.data || getenv(key).Some? ==> Get(s, key, default, getenv) == GetAsWritten(s, key, default, getenv)
    ensures key !in s.data && getenv(key).None? ==> Get(s, key, default, getenv) == default
  {
  }

  /**
   * Values loaded from the file take precedence over the process environment:
   * the last assignment the load carried out decides.
   */
  lemma LoadedWins(s: State, content: string, key: string, default: Value, getenv: string -> Option<string>)
    requires !s.loaded
    requires LastValue(Applied(Assignments(Lines(content))), key).Some?
    ensures Get(Load(s, Some(content)), key, default, getenv) == Str(LastValue(Applied(Assignments(Lines(content))), key).value)
    ensures AllNamed(Assignments(Lines(content))) ==> Applied(Assignments(Lines(content))) == Assignments(Lines(content))
  {
    StoreLastWins(s.data, Applied(Assignments(Lines(content))), key);
  }
}

=== FILE: php.dfy ===
/**
 * The slice of PHP's value model the core touches: scalars, ordered arrays
 * (PHP's ordered hash maps), string conversion and loose comparison against an int.
 */
module Php {
  import opened Wrappers
  import opened Text
  import opened Seqs

  /** An array key: PHP keys are integers or strings. */
  datatype Key = IntKey(n: int) | StrKey(s: string)

  /** A PHP value; an array is its entries in insertion order. */
  datatype Value =
    | Null
    | Bool(b: bool)
    | Int(n: int)
    | Str(s: string)
    | Arr(entries: seq<(Key, Value)>)

  type Entries = seq<(Key, Value)>

  /** A key written into a string, as in `"$key"`. */
  function KeyString(k: Key): string
  {
    match k
    case IntKey(n) => IntToString(n)
    case StrKey(s) => s
  }

  /** PHP's string conversion `(string)$v`: null and false give "", true gives "1", an array gives "Array". */
  function ToString(v: Value): string
  {
    match v
    case Null => ""
    case Bool(b) => if b then "1" else ""
    case Int(n) => IntToString(n)
    case Str(s) => s
    case Arr(_) => "Array"
  }

  /** A PHP array never holds the same key twice. */
  predicate UniqueKeys(e: Entries)
  {
    forall i, j :: 0 <= i < j < |e| ==> e[i].0 != e[j].0
  }

  predicate HasKey(e: Entries, k: Key)
  {
    exists i :: 0 <= i < |e| && e[i].0 == k
  }

  /** `$a[k] ?? null`: the value stored under `k`, or null when absent. */
  function Get(e: Entries, k: Key): (r: Value)
    ensures !HasKey(e, k) ==> r == Null
    ensures forall i :: 0 <= i < |e| && e[i].0 == k && (forall j :: 0 <= j < i ==> e[j].0 != k) ==> r == e[i].1
  {
    if e == [] then Null
    else if e[0].0 == k then e[0].1
    else
      assert forall i :: 1 <= i < |e| && e[i].0 == k ==> e[1..][i - 1].0 == k;
      Get(e[1..], k)
  }

  /**
   * `$a[k] = v`: an existing key keeps its position and takes the new value;
   * a new key is appended at the end.
   */
  function Set(e: Entries, k: Key, v: Value): (r: Entries)
    ensures HasKey(e, k) ==> |r| == |e|
    ensures !HasKey(e, k) ==> r == e + [(k, v)]
    ensures forall i :: 0 <= i < |e| ==> r[i].0 == e[i].0
    ensures forall i :: 0 <= i < |e| && e[i].0 != k ==> r[i] == e[i]
  {
    if e == [] then [(k, v)]
    else if e[0].0 == k then [(k, v)] + e[1..]
    else [e[0]] + Set(e[1..], k, v)
  }

  /** After `$a[k] = v`, reading `k` gives `v` and every other key reads as before. */
  lemma {:induction false} GetSet(e: Entries, k: Key, v: Value, k': Key)
    ensures Get(Set(e, k, v), k) == v
    ensures k' != k ==> Get(Set(e, k, v), k') == Get(e, k')
  {
    if e != [] && e[0].0 != k {
      GetSet(e[1..], k, v, k');
      assert Set(e, k, v)[1..] == Set(e[1..], k, v);
    }
  }

  /** Assignment keeps an array's keys distinct. */
  lemma SetKeepsUnique(e: Entries, k: Key, v: Value)
    requires UniqueKeys(e)
    ensures UniqueKeys(Set(e, k, v))
  {
    var r := Set(e, k, v);
    if !HasKey(e, k) {
      assert forall i :: 0 <= i < |e| ==> r[i].0 != r[|e|].0;
    }
  }

  /** Lexicographic order on strings by code point, as PHP's non-numeric string comparison. */
  predicate StrLess(a: string, b: string)
  {
    if a == [] then b != []
    else if b == [] then false
    else if a[0] != b[0] then a[0] < b[0]
    else StrLess(a[1..], b[1..])
  }

  /** The whitespace PHP 8 allows around a numeric string: space, \t, \n, \r, \v and \f. */
  predicate IsNumericSpace(c: char)
  {
    c == ' ' || c == '\t' || c == '\n' || c == '\r' || c as int == 11 || c as int == 12
  }

  function StripLeadingSpace(s: string): (r: string)
    ensures r == [] || !IsNumericSpace(r[0])
  {
    if s != [] && IsNumericSpace(s[0]) then StripLeadingSpace(s[1..]) else s
  }

  function StripTrailingSpace(s: string): (r: string)
    ensures r == [] || !IsNumericSpace(r[|r| - 1])
  {
    if s != [] && IsNumericSpace(s[|s| - 1]) then StripTrailingSpace(s[..|s| - 1]) else s
  }

  function Pow10(e: nat): (r: nat)
    ensures r >= 1
  {
    if e == 0 then 1 else 10 * Pow10(e - 1)
  }

  /** `x * 10^e` for a possibly negative exponent. */
  function ScaleTen(x: real, e: int): real
  {
    if e >= 0 then x * Pow10(e) as real else x / Pow10(-e) as real
  }

  /** An unsigned decimal `[0-9]*(\.[0-9]*)?` with at least one digit, read exactly. */
  function DecimalValue(s: string): Option<real>
  {
    match IndexOf(s, '.')
    case None => if |s| >= 1 && AllDigits(s) then Some(DigitsValue(s) as real) else None
    case Some(i) =>
      var whole, frac := s[..i], s[i + 1..];
      if |whole| + |frac| >= 1 && AllDigits(whole) && AllDigits(frac)
      then Some(DigitsValue(whole) as real + DigitsValue(frac) as real / Pow10(|frac|) as real)
      else None
  }

  /** An exponent `[+-]?[0-9]+`. */
  function ExponentValue(s: string): Option<int>
  {
    if |s| >= 2 && s[0] == '+' && AllDigits(s[1..]) then Some(DigitsValue(s[1..])) else ParseInt(s)
  }

  /** An unsigned mantissa, optionally followed by `e` or `E` and an exponent. */
  function UnsignedValue(s: string): Option<real>
  {
    var e := IndexOf(s, 'e');
    var k := if e.Some? then e else IndexOf(s, 'E');
    match k
    case None => DecimalValue(s)
    case Some(i) =>
      match (DecimalValue(s[..i]), ExponentValue(s[i + 1..]))
      case (Some(m), Some(x)) => Some(ScaleTen(m, x))
      case _ => None
  }

  /**
   * The value of a PHP 8 numeric string: optional surrounding whitespace, an optional
   * sign, then an integer, decimal or exponent literal; None when `s` is not numeric
   * (a leading-numeric string such as "5abc" is not numeric here).
   */
  function NumericValue(s: string): Option<real>
  {
    var t := StripTrailingSpace(StripLeadingSpace(s));
    if t != [] && t[0] == '-' then
      match UnsignedValue(t[1..])
      case Some(x) => Some(-x)
      case None => None
    else if t != [] && t[0] == '+' then UnsignedValue(t[1..])
    else UnsignedValue(t)
  }

  /** A plain digit run is read as its decimal value. */
  lemma UnsignedDigits(u: string)
    requires |u| >= 1 && AllDigits(u)
    ensures UnsignedValue(u) == Some(DigitsValue(u) as real)
  {
    assert '.' !in u && 'e' !in u && 'E' !in u by {
      forall i | 0 <= i < |u| ensures IsDigit(u[i]) {}
    }
  }

  /** Every string the integer reader accepts is numeric, with the same value. */
  lemma NumericExtendsParseInt(s: string)
    ensures ParseInt(s).Some? ==> NumericValue(s) == Some(ParseInt(s).value as real)
  {
    if ParseInt(s).Some? {
      assert StripLeadingSpace(s) == s;
      assert StripTrailingSpace(s) == s;
      var u := if s[0] == '-' then s[1..] else s;
      UnsignedDigits(u);
    }
  }

  /**
   * PHP 8's loose comparison `$v < $n` for an int `$n`: null and booleans compare as
   * booleans, numeric strings compare by value, other strings compare as strings
   * against the decimal form of `$n`, and an array is never less than a scalar.
   */
  predicate LessThanInt(v: Value, n: int)
  {
    match v
    case Null => n != 0
    case Bool(b) => !b && n != 0
    case Int(m) => m < n
    case Str(s) =>
      (match NumericValue(s)
       case Some(x) => x < n as real
       case None => StrLess(s, IntToString(n)))
    case Arr(_) => false
  }

  /** A string holding the decimal form of an int compares exactly as that int does. */
  lemma LessThanIntOfDecimal(m: int, n: int)
    ensures LessThanInt(Str(IntToString(m)), n) <==> LessThanInt(Int(m), n)
  {
    ParseIntToString(m);
    NumericExtendsParseInt(IntToString(m));
  }

  lemma FiveValue()
    ensures DigitsValue("5") == 5 && UnsignedValue("5") == Some(5.0)
  {
    assert "5"[..0] == [];
    UnsignedDigits("5");
  }

  /** Whitespace on either side and a `+` sign leave a numeric string numeric. */
  lemma PaddedAndSignedNumeric()
    ensures NumericValue(" 5") == Some(5.0)
    ensures NumericValue("5 ") == Some(5.0)
    ensures NumericValue("+5") == Some(5.0)
  {
    FiveValue();
    assert StripLeadingSpace(" 5") == "5" by { assert " 5"[1..] == "5"; }
    assert StripTrailingSpace("5 ") == "5" by { assert "5 "[..1] == "5"; }
    assert "+5"[1..] == "5";
  }

  /** A fractional literal is numeric with its exact value. */
  lemma FractionNumeric()
    ensures NumericValue("4.5") == Some(4.5)
  {
    var d := "4.5";
    assert StripLeadingSpace(d) == d && StripTrailingSpace(d) == d;
    assert 'e' !in d && 'E' !in d;
    assert IndexOf(d, '.') == Some(1) by { assert d[..1] == "4"; }
    assert d[..1] == "4" && d[2..] == "5";
    assert DigitsValue("4") == 4 by { assert "4"[..0] == []; }
    assert DigitsValue("5") == 5 by { assert "5"[..0] == []; }
    assert Pow10(1) == 10;
  }

  /** An exponent literal is numeric with its exact value. */
  lemma ExponentNumeric()
    ensures NumericValue("1e3") == Some(1000.0)
  {
    var x := "1e3";
    assert StripLeadingSpace(x) == x && StripTrailingSpace(x) == x;
    assert IndexOf(x, 'e') == Some(1) by { assert x[..1] == "1"; }
    assert x[..1] == "1" && x[2..] == "3";
    assert DigitsValue("1") == 1 by { assert "1"[..0] == []; }
    assert DigitsValue("3") == 3 by { assert "3"[..0] == []; }
    UnsignedDigits("1");
    assert ExponentValue("3") == Some(3);
    assert Pow10(3) == 1000;
  }

  /** "5abc" is not numeric: its `a` is neither a digit, a dot nor an exponent mark. */
  lemma LeadingNumericIsNot()
    ensures NumericValue("5abc") == None
  {
    var t := "5abc";
    assert StripLeadingSpace(t) == t && StripTrailingSpace(t) == t;
    assert 'e' !in t && 'E' !in t && '.' !in t;
    assert !IsDigit(t[1]);
  }

  /**
   * Padded, signed, fractional and exponent forms are numeric and compare by value,
   * while a leading-numeric string compares as a string.
   */
  lemma LessThanIntNumericForms()
    ensures LessThanInt(Str(" 5"), 6) && !LessThanInt(Str(" 5"), 5)
    ensures LessThanInt(Str("5 "), 6) && LessThanInt(Str("+5"), 6)
    ensures !LessThanInt(Str("4.5"), 4) && LessThanInt(Str("4.5"), 5)
    ensures !LessThanInt(Str("1e3"), 1000) && LessThanInt(Str("1e3"), 1001)
    ensures !LessThanInt(Str("5abc"), 10)
  {
    PaddedAndSignedNumeric();
    FractionNumeric();
    ExponentNumeric();
    LeadingNumericIsNot();
    assert IntToString(10) == "10";
  }
}

=== FILE: querybuilder.dfy ===
/**
 * The fluent query builder of core/Database.php as an immutable record: every
 * chained call is a pure function from builder state to builder state, and
 * every terminal call renders the SQL text and the bound-parameter list that
 * would be handed to the database. Execution itself is not part of the model.
 */
module QueryBuilder {
  import opened Wrappers
  import opened Seqs
  import opened Text
  import opened Php

  /** An `ORDER BY` clause: a sanitized column and its direction. */
  datatype Order = Order(field: string, desc: bool)

  /**
   * Builder state. `conditions` are the `"field op ?"` fragments joined with AND,
   * `params` the values bound to their placeholders, in order.
   */
  datatype Query = Query(
    table: string,
    selects: string,
    conditions: seq<string>,
    params: seq<Value>,
    order: Option<Order>,
    limit: Option<int>,
    offset: Option<int>)

  /** SQL text plus the parameters bound to its `?` placeholders, in order. */
  datatype Statement = Statement(sql: string, params: seq<Value>)

  /** Removes every character outside `[A-Za-z0-9_]`. */
  function SanitizeIdent(s: string): (r: string)
    ensures forall i :: 0 <= i < |r| ==> IsIdentChar(r[i])
  {
    Filter(s, IsIdentChar)
  }

  /** Removes every character outside `[A-Za-z0-9_.*]`. */
  function SanitizeSelect(s: string): (r: string)
    ensures forall i :: 0 <= i < |r| ==> IsSelectChar(r[i])
  {
    Filter(s, IsSelectChar)
  }

  function CountQ(s: string): nat
  {
    Count(s, '?')
  }

  /**
   * The invariant the builder keeps: identifiers hold no `?`, and there is one
   * bound parameter per condition, each condition holding exactly one `?`.
   */
  predicate Valid(q: Query)
  {
    && '?' !in q.table
    && '?' !in q.selects
    && (q.order.Some? ==> '?' !in q.order.value.field)
    && |q.conditions| == |q.params|
    && (forall i :: 0 <= i < |q.conditions| ==> CountQ(q.conditions[i]) == 1)
  }

  /** `new QueryBuilder($pdo, $table)`: the table name keeps only `[A-Za-z0-9_]`. */
  function Table(name: string): (q: Query)
    ensures forall i :: 0 <= i < |q.table| ==> IsIdentChar(q.table[i])
    ensures q.selects == "*" && q.conditions == [] && q.params == []
    ensures q.order == None && q.limit == None && q.offset == None
    ensures Valid(q)
  {
    Query(SanitizeIdent(name), "*", [], [], None, None, None)
  }

  /** A name that is already an identifier is kept as it is. */
  lemma TableKeepsIdentifier(a: string)
    requires forall i :: 0 <= i < |a| ==> IsIdentChar(a[i])
    ensures Table(a).table == a
  {
    FilterKeepsAll(a, IsIdentChar);
  }

  /** Characters outside `[A-Za-z0-9_]` are dropped wherever they occur, and the rest keep their order. */
  lemma TableDropsNonIdentifier(a: string, b: string, c: string)
    requires forall i :: 0 <= i < |a| ==> IsIdentChar(a[i])
    requires forall i :: 0 <= i < |b| ==> !IsIdentChar(b[i])
    requires forall i :: 0 <= i < |c| ==> IsIdentChar(c[i])
    ensures Table(a + b + c).table == a + c
  {
    FilterKeepsAll(a, IsIdentChar);
    FilterDropsAll(b, IsIdentChar);
    FilterKeepsAll(c, IsIdentChar);
    FilterConcat(a, b, IsIdentChar);
    assert Filter(a + b, IsIdentChar) == a + [];
    assert a + [] == a;
    FilterConcat(a + b, c, IsIdentChar);
    assert SanitizeIdent(a + b + c) == Filter(a + b + c, IsIdentChar);
  }

  /** Sanitizing an already sanitized table name changes nothing. */
  lemma TableIdempotent(name: string)
    ensures Table(Table(name).table).table == Table(name).table
  {
    FilterKeepsAll(Table(name).table, IsIdentChar);
  }

  /**
   * `select(...$fields)`: no fields leaves the builder as it is; otherwise each
   * field is reduced to `[A-Za-z0-9_.*]` and the list is joined with ", ".
   */
  function Select(q: Query, fields: seq<string>): (r: Query)
    ensures fields == [] ==> r == q
    ensures r.table == q.table && r.conditions == q.conditions && r.params == q.params
    ensures r.order == q.order && r.limit == q.limit && r.offset == q.offset
    ensures Valid(q) ==> Valid(r)
  {
    if fields == [] then q
    else
      var cleaned := MapSeq(fields, SanitizeSelect);
      MapSeqAt(fields, SanitizeSelect);
      JoinAbsent(cleaned, ", ", '?');
      q.(selects := Join(cleaned, ", "))
  }

  /** Reads a rendered select list back: split at commas and trim each entry. */
  function SelectColumns(selects: string): seq<string>
  {
    MapSeq(Split(selects, ','), Trim)
  }

  /** The entries of a ", "-joined list, with the space moved into every entry after the first. */
  function SpaceLed(parts: seq<string>): (r: seq<string>)
    requires |parts| >= 1
    ensures |r| == |parts| && r[0] == parts[0]
    ensures forall i :: 1 <= i < |parts| ==> r[i] == " " + parts[i]
  {
    MapSeqAt(parts[1..], SpaceBefore);
    [parts[0]] + MapSeq(parts[1..], SpaceBefore)
  }

  function SpaceBefore(p: string): string
  {
    " " + p
  }

  lemma {:induction false} JoinCommaSpace(parts: seq<string>)
    requires |parts| >= 1
    ensures Join(parts, ", ") == Join(SpaceLed(parts), ",")
  {
    if |parts| > 1 {
      JoinCommaSpace(parts[1..]);
      var l := SpaceLed(parts);
      var t := SpaceLed(parts[1..]);
      assert l[1..] == [" " + parts[1]] + t[1..];
      assert Join(l[1..], ",") == " " + Join(t, ",") by {
        if |parts| > 2 {
          assert t == [t[0]] + t[1..];
        }
      }
    }
  }

  lemma SpaceLedNoComma(cleaned: seq<string>)
    requires |cleaned| >= 1
    requires forall i :: 0 <= i < |cleaned| ==> forall k :: 0 <= k < |cleaned[i]| ==> IsSelectChar(cleaned[i][k])
    ensures forall i :: 0 <= i < |cleaned| ==> ',' !in SpaceLed(cleaned)[i]
  {
    var led := SpaceLed(cleaned);
    forall i | 0 <= i < |led|
      ensures ',' !in led[i]
    {
      assert forall k :: 0 <= k < |cleaned[i]| ==> cleaned[i][k] != ',';
    }
  }

  lemma TrimSelectEntry(c: string, lead: string)
    requires lead == "" || lead == " "
    requires forall k :: 0 <= k < |c| ==> IsSelectChar(c[k])
    ensures Trim(lead + c) == c
  {
    assert Trimmed(c);
    assert lead + c + [] == lead + c;
    TrimPadded(lead, c, []);
  }

  /** Trimming every entry of the comma-split form gives the entries back. */
  lemma TrimSpaceLed(cleaned: seq<string>)
    requires |cleaned| >= 1
    requires forall i :: 0 <= i < |cleaned| ==> forall k :: 0 <= k < |cleaned[i]| ==> IsSelectChar(cleaned[i][k])
    ensures MapSeq(SpaceLed(cleaned), Trim) == cleaned
  {
    var led := SpaceLed(cleaned);
    MapSeqAt(led, Trim);
    forall i | 0 <= i < |cleaned|
      ensures Trim(led[i]) == cleaned[i]
    {
      if i == 0 {
        TrimSelectEntry(cleaned[i], "");
        assert "" + cleaned[i] == cleaned[i];
      } else {
        TrimSelectEntry(cleaned[i], " ");
      }
    }
  }

  /** A ", "-joined list of select-character entries reads back as the entries. */
  lemma ListRoundTrip(cleaned: seq<string>)
    requires |cleaned| >= 1
    requires forall i :: 0 <= i < |cleaned| ==> forall k :: 0 <= k < |cleaned[i]| ==> IsSelectChar(cleaned[i][k])
    ensures SelectColumns(Join(cleaned, ", ")) == cleaned
  {
    JoinCommaSpace(cleaned);
    SpaceLedNoComma(cleaned);
    SplitJoin(SpaceLed(cleaned), ',');
    TrimSpaceLed(cleaned);
  }

  /** A non-empty `select` renders a list that reads back as exactly the sanitized fields, in order. */
  lemma SelectRoundTrip(q: Query, fields: seq<string>)
    requires fields != []
    ensures SelectColumns(Select(q, fields).selects) == MapSeq(fields, SanitizeSelect)
  {
    MapSeqAt(fields, SanitizeSelect);
    ListRoundTrip(MapSeq(fields, SanitizeSelect));
  }

  /** The operator text a `where` call writes: "=" when the value is null (the two-argument shape). */
  function OperatorText(operator: Value, value: Value): string
  {
    if value == Null then "=" else ToString(operator)
  }

  /** The fragment `"$field $operator ?"`. */
  function Condition(field: string, op: string): string
  {
    field + " " + op + " ?"
  }

  /** A condition holds the `?` of its field and operator plus its own placeholder. */
  lemma ConditionCount(field: string, op: string)
    ensures CountQ(Condition(field, op)) == CountQ(field) + CountQ(op) + 1
  {
    CountConcat(field + " " + op, " ?", '?');
    CountConcat(field + " ", op, '?');
    CountConcat(field, " ", '?');
  }

  /**
   * `where($field, $operator, $value)` with a scalar field; omitted arguments are
   * null. When the value is null the operator becomes "=" and the second argument
   * is bound, so `where('id', 1)` means `where('id', '=', 1)`. The field and the
   * operator are written into the SQL unsanitized.
   */
  function Where(q: Query, field: string, operator: Value, value: Value): (r: Query)
    ensures |r.conditions| == |q.conditions| + 1 && r.conditions[..|q.conditions|] == q.conditions
    ensures r.conditions[|q.conditions|] == Condition(field, OperatorText(operator, value))
    ensures |r.params| == |q.params| + 1 && r.params[..|q.params|] == q.params
    ensures r.params[|q.params|] == (if value == Null then operator else value)
    ensures r.table == q.table && r.selects == q.selects && r.order == q.order
    ensures r.limit == q.limit && r.offset == q.offset
  {
    var bound := if value == Null then operator else value;
    var cond := Condition(field, OperatorText(operator, value));
    q.(conditions := q.conditions + [cond], params := q.params + [bound])
  }

  /** A `where` call keeps the builder valid exactly when its field and operator text hold no `?`. */
  lemma WhereValid(q: Query, field: string, operator: Value, value: Value)
    requires Valid(q)
    ensures Valid(Where(q, field, operator, value)) <==>
      '?' !in field && '?' !in OperatorText(operator, value)
  {
    var r := Where(q, field, operator, value);
    ConditionCount(field, OperatorText(operator, value));
    if '?' in field {
      var k :| 0 <= k < |field| && field[k] == '?';
      assert field == field[..k] + [field[k]] + field[k + 1..];
      CountConcat(field[..k] + [field[k]], field[k + 1..], '?');
      CountConcat(field[..k], [field[k]], '?');
      assert CountQ(r.conditions[|q.conditions|]) > 1;
    } else if '?' in OperatorText(operator, value) {
      var t := OperatorText(operator, value);
      var k :| 0 <= k < |t| && t[k] == '?';
      assert t == t[..k] + [t[k]] + t[k + 1..];
      CountConcat(t[..k] + [t[k]], t[k + 1..], '?');
      CountConcat(t[..k], [t[k]], '?');
      assert CountQ(r.conditions[|q.conditions|]) > 1;
    } else {
      CountAbsent(field, '?');
      CountAbsent(OperatorText(operator, value), '?');
      assert forall i :: 0 <= i < |q.conditions| ==> r.conditions[i] == q.conditions[i];
    }
  }

  /** `where('id', v)` and `where('id', '=', v)` build the same query for every non-null `v`. */
  lemma WhereTwoArgumentsIsEquality(q: Query, field: string, v: Value)
    requires v != Null
    ensures Where(q, field, v, Null) == Where(q, field, Str("="), v)
  {
  }

  /**
   * With a null third argument the call takes the two-argument shape: the
   * operator string itself is bound and the condition uses "=".
   */
  lemma WhereNullValueBindsOperator(q: Query, field: string, op: string)
    ensures Where(q, field, Str(op), Null).params[|q.params|] == Str(op)
    ensures Where(q, field, Str(op), Null).conditions[|q.conditions|] == Condition(field, "=")
  {
  }

  /** The condition a `where(['k' => v])` entry adds. */
  function EntryCondition(e: (Key, Value)): string
  {
    Condition(KeyString(e.0), "=")
  }

  /** The parameter a `where(['k' => v])` entry binds: through `where(k, '=', v)`, a null `v` binds "=". */
  function EntryParam(e: (Key, Value)): Value
  {
    if e.1 == Null then Str("=") else e.1
  }

  /** `where([$k => $v, ...])`: one `where($k, '=', $v)` per entry, in array order. */
  function WhereAll(q: Query, entries: Entries): (r: Query)
    ensures r.conditions == q.conditions + MapSeq(entries, EntryCondition)
    ensures r.params == q.params + MapSeq(entries, EntryParam)
    ensures r.table == q.table && r.selects == q.selects && r.order == q.order
    ensures r.limit == q.limit && r.offset == q.offset
    decreases |entries|
  {
    if entries == [] then q
    else
      var q1 := Where(q, KeyString(entries[0].0), Str("="), entries[0].1);
      SnocOf(q.conditions, q1.conditions);
      SnocOf(q.params, q1.params);
      var r := WhereAll(q1, entries[1..]);
      MapSeqCons(entries, EntryCondition);
      MapSeqCons(entries, EntryParam);
      assert r.conditions == q.conditions + ([EntryCondition(entries[0])] + MapSeq(entries[1..], EntryCondition));
      assert r.params == q.params + ([EntryParam(entries[0])] + MapSeq(entries[1..], EntryParam));
      r
  }

  /**
   * `orderBy($field, $direction)`: the column keeps only `[A-Za-z0-9_]`, and the
   * direction is DESC exactly for a case variant of "desc", otherwise ASC.
   */
  function OrderBy(q: Query, field: string, direction: string): (r: Query)
    ensures r.order.Some?
    ensures forall i :: 0 <= i < |r.order.value.field| ==> IsIdentChar(r.order.value.field[i])
    ensures r.order.value.desc <==>
      |direction| == 4 && direction[0] in "dD" && direction[1] in "eE" && direction[2] in "sS" && direction[3] in "cC"
    ensures r.table == q.table && r.selects == q.selects && r.conditions == q.conditions
    ensures r.params == q.params && r.limit == q.limit && r.offset == q.offset
    ensures Valid(q) ==> Valid(r)
  {
    UpperIsDesc(direction);
    q.(order := Some(Order(SanitizeIdent(field), ToUpper(direction) == "DESC")))
  }

  /** `limit($n)`. */
  function Limit(q: Query, n: int): (r: Query)
    ensures r.limit == Some(n)
    ensures r.(limit := q.limit) == q
  {
    q.(limit := Some(n))
  }

  /** `offset($n)`. */
  function Offset(q: Query, n: int): (r: Query)
    ensures r.offset == Some(n)
    ensures r.(offset := q.offset) == q
  {
    q.(offset := Some(n))
  }

  /** `paginate($page, $perPage)`: pages below 1 count as page 1. */
  function Paginate(q: Query, page: int, perPage: int): (r: Query)
    ensures r.limit == Some(perPage)
    ensures r.offset.Some?
    ensures page <= 1 ==> r.offset == Some(0)
    ensures page >= 1 ==> r.offset == Some((page - 1) * perPage)
    ensures perPage >= 0 ==> r.offset.value >= 0
    ensures r.(limit := q.limit, offset := q.offset) == q
  {
    var p := if page < 1 then 1 else page;
    Offset(Limit(q, perPage), (p - 1) * perPage)
  }

  /** `paginate()` without arguments: the first page of ten rows. */
  const DefaultPage: int := 1
  const DefaultPerPage: int := 10

  /** The default page is rows 0 to 9. */
  lemma PaginateDefault(q: Query)
    ensures Paginate(q, DefaultPage, DefaultPerPage).limit == Some(10)
    ensures Paginate(q, DefaultPage, DefaultPerPage).offset == Some(0)
  {
  }

  /** Consecutive pages tile the result: page n+1 starts where page n ends. */
  lemma PaginateTiles(q: Query, page: int, perPage: int)
    requires page >= 1
    ensures Paginate(q, page + 1, perPage).offset.value ==
      Paginate(q, page, perPage).offset.value + perPage
  {
  }

  function WhereClause(q: Query): string
  {
    if q.conditions == [] then "" else " WHERE " + Join(q.conditions, " AND ")
  }

  /** A condition a reader can cut out of a WHERE clause: it ends in its `?` and holds no " AND ". */
  predicate Separable(c: string)
  {
    c != [] && c[|c| - 1] == '?' && Find(c, " AND ") == None
  }

  /** A condition ending in `?` meets the first " AND " after it exactly at its end. */
  lemma SeparableEnd(c: string)
    requires Separable(c)
    ensures Find(c + " AND ", " AND ") == Some(|c|)
  {
    var sep := " AND ";
    var s := c + sep;
    assert OccursAt(s, sep, |c|) by { assert s[|c|..|c| + |sep|] == sep; }
    forall j | 0 <= j < |c|
      ensures !OccursAt(s, sep, j)
    {
      if j + |sep| <= |c| {
        assert !OccursAt(c, sep, j);
        assert s[j..j + |sep|] == c[j..j + |sep|];
      } else {
        assert s[j..j + |sep|][|c| - 1 - j] == '?';
      }
    }
    FindAt(s, sep, |c|);
  }

  /**
   * The WHERE clause is present exactly when there are conditions, and then reads
   * back, after " WHERE ", as the conditions in the order they were added.
   */
  lemma WhereClauseReads(q: Query)
    ensures WhereClause(q) == "" <==> q.conditions == []
    ensures q.conditions != [] ==> StartsWith(WhereClause(q), " WHERE ")
    ensures q.conditions != [] && (forall i :: 0 <= i < |q.conditions| ==> Separable(q.conditions[i])) ==>
      SplitOn(WhereClause(q)[7..], " AND ") == q.conditions
  {
    var cs := q.conditions;
    if cs != [] && forall i :: 0 <= i < |cs| ==> Separable(cs[i]) {
      forall i | 0 <= i < |cs| - 1
        ensures Find(cs[i] + " AND ", " AND ") == Some(|cs[i]|)
      {
        SeparableEnd(cs[i]);
      }
      assert WhereClause(q)[7..] == Join(cs, " AND ");
      SplitOnJoin(cs, " AND ");
    }
  }

  function OrderClause(q: Query): string
  {
    match q.order
    case None => ""
    case Some(o) => " ORDER BY " + o.field + (if o.desc then " DESC" else " ASC")
  }

  /** " ORDER BY <field> <dir>" splits at spaces into its words when the field has no space. */
  lemma OrderWords(field: string, dir: string)
    requires ' ' !in field && ' ' !in dir
    ensures Split(" ORDER BY " + field + " " + dir, ' ') == ["", "ORDER", "BY", field, dir]
  {
    var tail := field + [' '] + dir;
    var order := "BY" + [' '] + tail;
    var all := "ORDER" + [' '] + order;
    assert " ORDER BY " + field + " " + dir == [] + [' '] + all;
    SplitNoDelimiter(dir, ' ');
    SplitAtDelimiter(field, dir, ' ');
    SplitAtDelimiter("BY", tail, ' ');
    SplitAtDelimiter("ORDER", order, ' ');
    SplitAtDelimiter([], all, ' ');
  }

  /** The ORDER BY clause is present exactly when an order is set, and splits at spaces into its words. */
  lemma OrderClauseReads(q: Query)
    ensures OrderClause(q) == "" <==> q.order.None?
    ensures q.order.Some? && ' ' !in q.order.value.field ==>
      Split(OrderClause(q), ' ') == ["", "ORDER", "BY", q.order.value.field, if q.order.value.desc then "DESC" else "ASC"]
  {
    if q.order.Some? && ' ' !in q.order.value.field {
      var o := q.order.value;
      var dir := if o.desc then "DESC" else "ASC";
      assert OrderClause(q) == " ORDER BY " + o.field + " " + dir;
      OrderWords(o.field, dir);
    }
  }

  /** PHP's `if ($this->limit)`: an absent or zero limit is left out. */
  function LimitClause(q: Query): string
  {
    if q.limit.Some? && q.limit.value != 0 then " LIMIT " + IntToString(q.limit.value) else ""
  }

  function OffsetClause(q: Query): string
  {
    if q.offset.Some? && q.offset.value != 0 then " OFFSET " + IntToString(q.offset.value) else ""
  }

  /**
   * LIMIT and OFFSET are present exactly when set to a non-zero value, and the
   * number after the keyword reads back as that value.
   */
  lemma NumberClausesRead(q: Query)
    ensures LimitClause(q) != "" <==> q.limit.Some? && q.limit.value != 0
    ensures LimitClause(q) != "" ==> StartsWith(LimitClause(q), " LIMIT ") && ParseInt(LimitClause(q)[7..]) == q.limit
    ensures OffsetClause(q) != "" <==> q.offset.Some? && q.offset.value != 0
    ensures OffsetClause(q) != "" ==> StartsWith(OffsetClause(q), " OFFSET ") && ParseInt(OffsetClause(q)[8..]) == q.offset
  {
    if q.limit.Some? {
      ParseIntToString(q.limit.value);
      assert (" LIMIT " + IntToString(q.limit.value))[7..] == IntToString(q.limit.value);
    }
    if q.offset.Some? {
      ParseIntToString(q.offset.value);
      assert (" OFFSET " + IntToString(q.offset.value))[8..] == IntToString(q.offset.value);
    }
  }

  function SelectHead(q: Query): string
  {
    "SELECT " + q.selects + " FROM " + q.table
  }

  /** `get()`: the SELECT statement, bound to the WHERE parameters. */
  function Get(q: Query): (st: Statement)
    ensures st.params == q.params
    ensures StartsWith(st.sql, SelectHead(q))
    ensures (q.conditions == [] && q.order == None && (q.limit.None? || q.limit == Some(0)) &&
             (q.offset.None? || q.offset == Some(0))) ==> st.sql == SelectHead(q)
  {
    var sql := SelectHead(q) + WhereClause(q) + OrderClause(q) + LimitClause(q) + OffsetClause(q);
    assert sql[..|SelectHead(q)|] == SelectHead(q);
    Statement(sql, q.params)
  }

  /**
   * The SELECT is the head followed by the WHERE, ORDER BY, LIMIT and OFFSET clauses
   * in that order; each is present exactly when its part of the builder is set.
   */
  lemma GetLayout(q: Query)
    ensures Get(q).sql == SelectHead(q) + WhereClause(q) + OrderClause(q) + LimitClause(q) + OffsetClause(q)
    ensures WhereClause(q) != "" <==> q.conditions != []
    ensures OrderClause(q) != "" <==> q.order.Some?
    ensures LimitClause(q) != "" <==> q.limit.Some? && q.limit.value != 0
    ensures OffsetClause(q) != "" <==> q.offset.Some? && q.offset.value != 0
  {
    WhereClauseReads(q);
    OrderClauseReads(q);
    NumberClausesRead(q);
  }

  /** `first()`: forces limit 1 on the builder (it stays set) and renders `get()`. */
  function First(q: Query): (r: (Query, Statement))
    ensures r.0.limit == Some(1)
    ensures r.0.(limit := q.limit) == q
    ensures r.1 == Get(r.0)
  {
    var q1 := Limit(q, 1);
    (q1, Get(q1))
  }

  /** `count()`: only the WHERE clause is rendered; order, limit and offset are ignored. */
  function CountRows(q: Query): (st: Statement)
    ensures st.params == q.params
    ensures StartsWith(st.sql, CountHead(q))
    ensures st.sql[|CountHead(q)|..] == WhereClause(q)
    ensures q.conditions == [] ==> st.sql == CountHead(q)
  {
    var sql := CountHead(q) + WhereClause(q);
    assert sql[..|CountHead(q)|] == CountHead(q);
    Statement(sql, q.params)
  }

  function CountHead(q: Query): string
  {
    "SELECT COUNT(*) as count FROM " + q.table
  }

  /** `count()` ignores the select list, the order, the limit and the offset. */
  lemma CountIgnoresShape(q: Query, fields: seq<string>, field: string, dir: string, n: int)
    ensures CountRows(Paginate(OrderBy(Select(q, fields), field, dir), n, n)) == CountRows(q)
  {
  }

  /** The sanitized column an entry of `insert`/`update` data writes to. */
  function Column(e: (Key, Value)): string
  {
    SanitizeIdent(KeyString(e.0))
  }

  function EntryValue(e: (Key, Value)): Value
  {
    e.1
  }

  /** `array_values($data)`. */
  function Values(data: Entries): (r: seq<Value>)
    ensures |r| == |data|
    ensures forall i :: 0 <= i < |data| ==> r[i] == data[i].1
  {
    MapSeqAt(data, EntryValue);
    MapSeq(data, EntryValue)
  }

  /** The `"col = ?"` fragment of `update`. */
  function SetFragment(e: (Key, Value)): string
  {
    Column(e) + " = ?"
  }

  /** `count($values)` copies of "?". */
  function Placeholders(n: nat): (r: seq<string>)
    ensures |r| == n
    ensures forall i :: 0 <= i < n ==> r[i] == "?"
  {
    if n == 0 then [] else Placeholders(n - 1) + ["?"]
  }

  /** `insert($data)`: sanitized column names, one "?" per value, the values bound in order. */
  function Insert(q: Query, data: Entries): (st: Statement)
    ensures st.params == Values(data)
  {
    Statement(
      "INSERT INTO " + q.table + " (" + Join(MapSeq(data, Column), ", ") + ") VALUES (" + Join(Placeholders(|data|), ", ") + ")",
      Values(data))
  }

  /** `update($data)`: the SET values are bound first, then the WHERE parameters (only when there is a WHERE). */
  function Update(q: Query, data: Entries): (st: Statement)
    ensures |st.params| >= |data| && st.params[..|data|] == Values(data)
    ensures st.params[|data|..] == (if q.conditions == [] then [] else q.params)
  {
    var sets := MapSeq(data, SetFragment);
    var sql := UpdateHead(q) + Join(sets, ", ") + WhereClause(q);
    var ps := if q.conditions == [] then Values(data) else Values(data) + q.params;
    assert ps[..|data|] == Values(data);
    Statement(sql, ps)
  }

  /** The text between the first `(` and the `)` after it: the column list of an INSERT. */
  function ColumnList(sql: string): Option<string>
  {
    match IndexOf(sql, '(')
    case None => None
    case Some(i) =>
      match IndexOf(sql[i + 1..], ')')
      case None => None
      case Some(j) => Some(sql[i + 1..][..j])
  }

  /** A `)`-free list in parentheses after `(`-free text is the column list. */
  lemma ColumnListOf(pre: string, list: string, tail: string)
    requires '(' !in pre && ')' !in list && tail != [] && tail[0] == ')'
    ensures ColumnList(pre + "(" + list + tail) == Some(list)
  {
    var rest := list + tail;
    var sql := pre + "(" + list + tail;
    assert sql == pre + ['('] + rest;
    IndexAfter(pre, '(', rest);
    assert sql[|pre| + 1..] == rest;
    assert rest == list + [')'] + tail[1..];
    IndexAfter(list, ')', tail[1..]);
    assert rest[..|list|] == list;
  }

  /** Sanitized columns are identifiers. */
  lemma ColumnsAreIdentifiers(data: Entries)
    ensures forall i :: 0 <= i < |data| ==> forall k :: 0 <= k < |MapSeq(data, Column)[i]| ==> IsIdentChar(MapSeq(data, Column)[i][k])
  {
    MapSeqAt(data, Column);
  }

  /**
   * The column list of an INSERT reads back, split at commas and trimmed, as the
   * sanitized keys of the data in order; with no data it is empty.
   */
  lemma InsertColumns(q: Query, data: Entries)
    requires '(' !in q.table
    ensures ColumnList(Insert(q, data).sql).Some?
    ensures data == [] ==> ColumnList(Insert(q, data).sql) == Some("")
    ensures data != [] ==> SelectColumns(ColumnList(Insert(q, data).sql).value) == MapSeq(data, Column)
  {
    var cols := MapSeq(data, Column);
    var list := Join(cols, ", ");
    var pre := "INSERT INTO " + q.table + " ";
    var tail := ") VALUES (" + Join(Placeholders(|data|), ", ") + ")";
    assert Insert(q, data).sql == pre + "(" + list + tail;
    ColumnsAreIdentifiers(data);
    forall i | 0 <= i < |cols|
      ensures ')' !in cols[i]
    {
      assert forall k :: 0 <= k < |cols[i]| ==> IsIdentChar(cols[i][k]);
    }
    JoinAbsent(cols, ", ", ')');
    ColumnListOf(pre, list, tail);
    if data != [] {
      ListRoundTrip(cols);
    }
  }

  function UpdateHead(q: Query): string
  {
    "UPDATE " + q.table + " SET "
  }

  /** A SET item holds no comma: its column is an identifier. */
  lemma NoCommaIn(lead: string, c: string)
    requires lead == "" || lead == " "
    requires forall k :: 0 <= k < |c| ==> IsIdentChar(c[k])
    ensures ',' !in lead + c + " = ?"
  {
    var t := lead + c + " = ?";
    forall k | 0 <= k < |t|
      ensures t[k] != ','
    {
      if |lead| <= k < |lead| + |c| {
        assert t[k] == c[k - |lead|];
      }
    }
  }

  /** The SET list of `update`: its comma-split items are the `col = ?` fragments, in data order. */
  lemma SetListSplits(data: Entries)
    requires data != []
    ensures |Split(Join(MapSeq(data, SetFragment), ", "), ',')| == |data|
    ensures forall i :: 0 <= i < |data| ==>
      Split(Join(MapSeq(data, SetFragment), ", "), ',')[i] == (if i == 0 then "" else " ") + Column(data[i]) + " = ?"
  {
    var sets := MapSeq(data, SetFragment);
    var led := SpaceLed(sets);
    assert Join(sets, ", ") == Join(led, ",") by {
      JoinCommaSpace(sets);
    }
    MapSeqAt(data, SetFragment);
    forall i | 0 <= i < |led|
      ensures led[i] == (if i == 0 then "" else " ") + Column(data[i]) + " = ?"
      ensures ',' !in led[i]
    {
      var c, lead := Column(data[i]), if i == 0 then "" else " ";
      assert led[i] == lead + c + " = ?" by {
        assert sets[i] == c + " = ?";
        assert i == 0 ==> lead + c + " = ?" == c + " = ?";
      }
      NoCommaIn(lead, c);
    }
    SplitJoin(led, ',');
  }

  /**
   * Between "UPDATE <table> SET " and the WHERE clause, the SET list splits at
   * commas into one `col = ?` per entry, in data order (after the first, each
   * led by the space of ", "); with no data it is empty.
   */
  lemma UpdateSetList(q: Query, data: Entries)
    ensures StartsWith(Update(q, data).sql, UpdateHead(q))
    ensures |UpdateHead(q)| + |WhereClause(q)| <= |Update(q, data).sql|
    ensures Update(q, data).sql[|Update(q, data).sql| - |WhereClause(q)|..] == WhereClause(q)
    ensures data == [] ==> |Update(q, data).sql| == |UpdateHead(q)| + |WhereClause(q)|
    ensures data != [] ==>
      var items := Split(Update(q, data).sql[|UpdateHead(q)|..|Update(q, data).sql| - |WhereClause(q)|], ',');
      |items| == |data| &&
      forall i :: 0 <= i < |data| ==> items[i] == (if i == 0 then "" else " ") + Column(data[i]) + " = ?"
  {
    var list := Join(MapSeq(data, SetFragment), ", ");
    var head, w := UpdateHead(q), WhereClause(q);
    var sql := Update(q, data).sql;
    assert sql == head + list + w;
    assert sql[..|head|] == head;
    assert sql[|sql| - |w|..] == w;
    assert sql[|head|..|sql| - |w|] == list;
    if data != [] {
      SetListSplits(data);
    }
  }

  /** `delete()`: DELETE with the WHERE clause, bound to the WHERE parameters. */
  function Delete(q: Query): (st: Statement)
    ensures st.params == q.params
    ensures StartsWith(st.sql, DeleteHead(q))
    ensures q.conditions == [] ==> st.sql == DeleteHead(q)
  {
    var sql := DeleteHead(q) + WhereClause(q);
    assert sql[..|DeleteHead(q)|] == DeleteHead(q);
    Statement(sql, q.params)
  }

  function DeleteHead(q: Query): string
  {
    "DELETE FROM " + q.table
  }

  /** `delete()` removes the rows `count()` counts: after their heads, both statements are the same WHERE text with the same parameters. */
  lemma DeleteMatchesCount(q: Query)
    ensures CountRows(q).sql[|CountHead(q)|..] == Delete(q).sql[|DeleteHead(q)|..]
    ensures CountRows(q).params == Delete(q).params
  {
    assert CountRows(q).sql[|CountHead(q)|..] == WhereClause(q);
    assert Delete(q).sql[|DeleteHead(q)|..] == WhereClause(q);
  }

  // ---- placeholder accounting -------------------------------------------------

  lemma NoQuestionInDecimal(n: int)
    ensures '?' !in IntToString(n)
  {
    var s := IntToString(n);
    assert forall k :: 0 <= k < |s| ==> s[k] != '?';
  }

  lemma NoQuestionInIdent(s: string)
    requires forall i :: 0 <= i < |s| ==> IsSelectChar(s[i])
    ensures '?' !in s
  {
    assert forall i :: 0 <= i < |s| ==> s[i] != '?';
  }

  lemma WhereClauseCount(q: Query)
    requires Valid(q)
    ensures CountQ(WhereClause(q)) == |q.params|
  {
    if q.conditions != [] {
      CountJoin(q.conditions, " AND ", '?');
      CountConcat(" WHERE ", Join(q.conditions, " AND "), '?');
      CountAbsent(" WHERE ", '?');
    }
  }

  lemma TailClausesCount(q: Query)
    requires Valid(q)
    ensures CountQ(OrderClause(q)) == 0
    ensures CountQ(LimitClause(q)) == 0
    ensures CountQ(OffsetClause(q)) == 0
  {
    if q.order.Some? {
      var o := q.order.value;
      assert '?' !in " ORDER BY " + o.field + (if o.desc then " DESC" else " ASC");
      CountAbsent(OrderClause(q), '?');
    }
    if q.limit.Some? {
      NoQuestionInDecimal(q.limit.value);
      assert '?' !in " LIMIT " + IntToString(q.limit.value);
    }
    CountAbsent(LimitClause(q), '?');
    if q.offset.Some? {
      NoQuestionInDecimal(q.offset.value);
      assert '?' !in " OFFSET " + IntToString(q.offset.value);
    }
    CountAbsent(OffsetClause(q), '?');
  }

  /** On a valid builder the SELECT statement has exactly one `?` per bound parameter. */
  lemma GetPlaceholders(q: Query)
    requires Valid(q)
    ensures CountQ(Get(q).sql) == |Get(q).params|
  {
    var head := "SELECT " + q.selects + " FROM " + q.table;
    assert '?' !in head;
    CountAbsent(head, '?');
    WhereClauseCount(q);
    TailClausesCount(q);
    CountConcat(head, WhereClause(q), '?');
    CountConcat(head + WhereClause(q), OrderClause(q), '?');
    CountConcat(head + WhereClause(q) + OrderClause(q), LimitClause(q), '?');
    CountConcat(head + WhereClause(q) + OrderClause(q) + LimitClause(q), OffsetClause(q), '?');
  }

  /** On a valid builder `first()` keeps the builder valid and renders one `?` per parameter. */
  lemma FirstPlaceholders(q: Query)
    requires Valid(q)
    ensures Valid(First(q).0)
    ensures CountQ(First(q).1.sql) == |First(q).1.params|
  {
    GetPlaceholders(First(q).0);
  }

  /** On a valid builder the COUNT statement has exactly one `?` per bound parameter. */
  lemma CountPlaceholders(q: Query)
    requires Valid(q)
    ensures CountQ(CountRows(q).sql) == |CountRows(q).params|
  {
    var head := "SELECT COUNT(*) as count FROM " + q.table;
    assert '?' !in head;
    CountAbsent(head, '?');
    WhereClauseCount(q);
    CountConcat(head, WhereClause(q), '?');
  }

  /** On a valid builder the DELETE statement has exactly one `?` per bound parameter. */
  lemma DeletePlaceholders(q: Query)
    requires Valid(q)
    ensures CountQ(Delete(q).sql) == |Delete(q).params|
  {
    var head := "DELETE FROM " + q.table;
    assert '?' !in head;
    CountAbsent(head, '?');
    WhereClauseCount(q);
    CountConcat(head, WhereClause(q), '?');
  }

  /** The INSERT statement has one `?` per inserted value and binds exactly those values. */
  lemma InsertPlaceholders(q: Query, data: Entries)
    requires '?' !in q.table
    ensures CountQ(Insert(q, data).sql) == |data| == |Insert(q, data).params|
  {
    var keys := MapSeq(data, Column);
    MapSeqAt(data, Column);
    forall i | 0 <= i < |keys|
      ensures '?' !in keys[i]
    {
      NoQuestionInIdent(keys[i]);
    }
    JoinAbsent(keys, ", ", '?');
    var ph := Placeholders(|data|);
    assert forall i :: 0 <= i < |ph| ==> CountQ(ph[i]) == 1;
    CountJoin(ph, ", ", '?');
    var a := "INSERT INTO " + q.table + " (" + Join(keys, ", ") + ") VALUES (";
    assert '?' !in a;
    CountAbsent(a, '?');
    CountConcat(a, Join(ph, ", "), '?');
    CountConcat(a + Join(ph, ", "), ")", '?');
  }

  /**
   * On a valid builder the UPDATE statement has one `?` per bound parameter, and
   * the parameters are the SET values followed by all WHERE parameters.
   */
  lemma UpdatePlaceholders(q: Query, data: Entries)
    requires Valid(q)
    ensures Update(q, data).params == Values(data) + q.params
    ensures CountQ(Update(q, data).sql) == |Update(q, data).params|
  {
    var sets := MapSeq(data, SetFragment);
    MapSeqAt(data, SetFragment);
    forall i | 0 <= i < |sets|
      ensures CountQ(sets[i]) == 1
    {
      var k := Column(data[i]);
      NoQuestionInIdent(k);
      CountAbsent(k, '?');
      CountConcat(k, " = ?", '?');
    }
    CountJoin(sets, ", ", '?');
    var head := "UPDATE " + q.table + " SET ";
    assert '?' !in head;
    CountAbsent(head, '?');
    CountConcat(head, Join(sets, ", "), '?');
    WhereClauseCount(q);
    CountConcat(head + Join(sets, ", "), WhereClause(q), '?');
  }

  // ---- the builder keeps its invariant ------------------------------------------

  /** `where([...])` keeps the builder valid when no key's text holds a `?`. */
  lemma WhereAllValid(q: Query, entries: Entries)
    requires Valid(q)
    requires forall i :: 0 <= i < |entries| ==> '?' !in KeyString(entries[i].0)
    ensures Valid(WhereAll(q, entries))
  {
    var added := MapSeq(entries, EntryCondition);
    MapSeqAt(entries, EntryCondition);
    forall i | 0 <= i < |added|
      ensures CountQ(added[i]) == 1
    {
      CountAbsent(KeyString(entries[i].0), '?');
      CountAbsent("=", '?');
      ConditionCount(KeyString(entries[i].0), "=");
    }
  }

  /** Select, limit, offset and paginate never break the invariant. */
  lemma ShapeCallsKeepValid(q: Query, fields: seq<string>, n: int, m: int)
    requires Valid(q)
    ensures Valid(Select(q, fields))
    ensures Valid(Limit(q, n)) && Valid(Offset(q, n)) && Valid(Paginate(q, n, m))
  {
  }
}

=== FILE: ratelimit.dfy ===
/**
 * The fixed-window logic of `Security::rateLimit`: one window per client
 * holding a request count and the time the window opened. Reading and writing
 * the window file, the md5 keying and the HTTP response are not modelled.
 */
module RateLimit {
  import opened Wrappers

  /** `rateLimit()` without arguments: 100 requests per 60 seconds. */
  const DefaultLimit: int := 100
  const DefaultDuration: int := 60

  /** The stored `{"count": ..., "start": ...}` record. */
  datatype Window = Window(count: int, start: int)

  /** Whether the request goes through, and the `Retry-After` seconds when it does not. */
  datatype Verdict = Allowed | Limited(retryAfter: int)

  /**
   * One request at clock reading `now`: a missing window, or one opened more
   * than `duration` seconds ago, is replaced by a fresh window holding this
   * request; otherwise the request is added to the stored window.
   */
  function Advance(stored: Option<Window>, now: int, duration: int): (w: Window)
    ensures stored.None? || now - stored.value.start > duration ==> w == Window(1, now)
    ensures stored.Some? && now - stored.value.start <= duration ==>
      w.count == stored.value.count + 1 && w.start == stored.value.start
  {
    match stored
    case None => Window(1, now)
    case Some(prev) =>
      if now - prev.start > duration then Window(1, now) else Window(prev.count + 1, prev.start)
  }

  /**
   * `rateLimit($limit, $duration)` for one request: the window to store and the
   * verdict. The request is limited exactly when the updated count exceeds
   * `limit`, and then asked to retry when the window closes.
   */
  function Step(stored: Option<Window>, now: int, limit: int, duration: int): (r: (Window, Verdict))
    ensures r.0 == Advance(stored, now, duration)
    ensures r.1.Limited? <==> r.0.count > limit
    ensures r.1.Limited? ==> r.1.retryAfter == duration - (now - r.0.start)
    ensures r.1.Limited? && duration >= 0 ==> r.1.retryAfter >= 0
    ensures r.1.Limited? && (stored.None? || stored.value.start <= now) ==> r.1.retryAfter <= duration
  {
    var w := Advance(stored, now, duration);
    (w, if w.count > limit then Limited(duration - (now - w.start)) else Allowed)
  }

  /** The verdicts for a series of requests from one client, the window carried from each to the next. */
  function Replay(stored: Option<Window>, times: seq<int>, limit: int, duration: int): (vs: seq<Verdict>)
    ensures |vs| == |times|
    decreases |times|
  {
    if times == [] then []
    else
      var (w, v) := Step(stored, times[0], limit, duration);
      [v] + Replay(Some(w), times[1..], limit, duration)
  }

  /**
   * While every request falls within `duration` seconds of the window's start,
   * the window only counts up: request `i` is the `(count + i + 1)`-th.
   */
  lemma {:induction false} ReplayWithin(count: int, start: int, times: seq<int>, limit: int, duration: int)
    requires forall i :: 0 <= i < |times| ==> times[i] - start <= duration
    ensures forall i :: 0 <= i < |times| ==>
      Replay(Some(Window(count, start)), times, limit, duration)[i] ==
        if count + i + 1 > limit then Limited(duration - (times[i] - start)) else Allowed
    decreases |times|
  {
    if times != [] {
      ReplayWithin(count + 1, start, times[1..], limit, duration);
      var vs := Replay(Some(Window(count, start)), times, limit, duration);
      assert forall i :: 1 <= i < |times| ==> vs[i] == Replay(Some(Window(count + 1, start)), times[1..], limit, duration)[i - 1];
    }
  }

  /**
   * A fixed window lets exactly the first `limit` requests through: starting
   * with no window, request `i` (from 0) is allowed exactly when `i < limit`
   * as long as all requests come within `duration` seconds of the first.
   */
  lemma FixedWindow(times: seq<int>, limit: int, duration: int)
    requires times != []
    requires forall i :: 0 <= i < |times| ==> times[i] - times[0] <= duration
    ensures forall i :: 0 <= i < |times| ==>
      (Replay(None, times, limit, duration)[i] == Allowed <==> i < limit)
  {
    ReplayWithin(1, times[0], times[1..], limit, duration);
    var vs := Replay(None, times, limit, duration);
    assert forall i :: 1 <= i < |times| ==> vs[i] == Replay(Some(Window(1, times[0])), times[1..], limit, duration)[i - 1];
  }

  /** With the default arguments, the first 100 requests within a minute of the first pass and the rest are refused. */
  lemma DefaultWindow(times: seq<int>)
    requires times != []
    requires forall i :: 0 <= i < |times| ==> times[i] - times[0] <= DefaultDuration
    ensures forall i :: 0 <= i < |times| ==>
      (Replay(None, times, DefaultLimit, DefaultDuration)[i] == Allowed <==> i < 100)
  {
    FixedWindow(times, DefaultLimit, DefaultDuration);
  }

  /** Once the window is more than `duration` old, the next request starts over as the first. */
  lemma WindowExpires(w: Window, now: int, limit: int, duration: int)
    requires now - w.start > duration
    ensures Step(Some(w), now, limit, duration) == (Window(1, now), if 1 > limit then Limited(duration) else Allowed)
  {
  }

  /** A limit of 2 per 60 seconds: two requests pass, the third waits out the window, and a request after it passes. */
  lemma TwoPerMinute()
    ensures Replay(None, [0, 10, 20, 61], 2, 60) == [Allowed, Allowed, Limited(40), Allowed]
  {
    assert [0, 10, 20, 61][1..] == [10, 20, 61];
    assert [10, 20, 61][1..] == [20, 61];
    assert [20, 61][1..] == [61];
  }
}

=== FILE: router.dfy ===
/**
 * The route table of core/Router.php. A path template such as `/users/:id`
 * is compiled into tokens (literal text and named placeholders) instead of a
 * regular expression, and a recursive matcher with the same greedy,
 * backtracking, anchored behaviour replaces `preg_match`. Group callbacks
 * are registration programs run with the prefix pushed and then restored.
 */
module Router {
  import opened Wrappers
  import opened Seqs
  import opened Text

  // ---- path templates -----------------------------------------------------------

  /** A piece of a compiled template: literal text, or a `:name` placeholder. */
  datatype Token = Lit(text: string) | Param(name: string)

  type Pattern = seq<Token>

  /** The longest prefix of `s` made of `[A-Za-z0-9_]`. */
  function IdentRun(s: string): (r: string)
    ensures |r| <= |s| && r == s[..|r|]
    ensures forall i :: 0 <= i < |r| ==> IsIdentChar(r[i])
    ensures |r| == |s| || !IsIdentChar(s[|r|])
  {
    if s != [] && IsIdentChar(s[0]) then [s[0]] + IdentRun(s[1..]) else []
  }

  /** Adds one literal character in front of a pattern, merging it into a leading literal. */
  function PrependChar(c: char, p: Pattern): Pattern
  {
    if p != [] && p[0].Lit? then [Lit([c] + p[0].text)] + p[1..] else [Lit([c])] + p
  }

  /**
   * The compiled form of a full route path: every `:` followed by one or more
   * `[A-Za-z0-9_]` becomes a placeholder named by the longest such run; every
   * other character is literal. A `:` not followed by an identifier character stays literal.
   */
  function Compile(path: string): Pattern
    decreases |path|
  {
    if path == [] then []
    else if path[0] == ':' && |path| > 1 && IsIdentChar(path[1]) then
      var name := IdentRun(path[1..]);
      [Param(name)] + Compile(path[1 + |name|..])
    else
      PrependChar(path[0], Compile(path[1..]))
  }

  /** One compile step at a `:` followed by a name character. */
  lemma CompileParamStep(path: string)
    requires |path| > 1 && path[0] == ':' && IsIdentChar(path[1])
    ensures Compile(path) == [Param(IdentRun(path[1..]))] + Compile(path[1 + |IdentRun(path[1..])|..])
  {
  }

  /** One compile step at any other character. */
  lemma CompileCharStep(path: string)
    requires path != [] && !(path[0] == ':' && |path| > 1 && IsIdentChar(path[1]))
    ensures Compile(path) == PrependChar(path[0], Compile(path[1..]))
  {
  }

  /** The template text a pattern was compiled from. */
  function Source(p: Pattern): string
  {
    if p == [] then []
    else
      match p[0]
      case Lit(t) => t + Source(p[1..])
      case Param(n) => ":" + n + Source(p[1..])
  }

  /** The template text a token writes. */
  function TokenSource(t: Token): string
  {
    match t
    case Lit(x) => x
    case Param(n) => ":" + n
  }

  lemma SourceCons(t: Token, q: Pattern)
    ensures Source([t] + q) == TokenSource(t) + Source(q)
  {
    assert ([t] + q)[1..] == q;
  }

  /** Prepending a literal character to a pattern prepends it to the template text. */
  lemma SourcePrepend(c: char, r: Pattern)
    ensures Source(PrependChar(c, r)) == [c] + Source(r)
  {
    if r != [] && r[0].Lit? {
      SourceCons(Lit([c] + r[0].text), r[1..]);
      SourceCons(r[0], r[1..]);
      assert r == [r[0]] + r[1..];
    } else {
      SourceCons(Lit([c]), r);
    }
  }

  /** Compiling loses nothing: the template reads back from its tokens. */
  lemma {:induction false} CompileSource(path: string)
    ensures Source(Compile(path)) == path
    decreases |path|
  {
    if path == [] {
    } else if path[0] == ':' && |path| > 1 && IsIdentChar(path[1]) {
      var name := IdentRun(path[1..]);
      var rest := path[1 + |name|..];
      assert Compile(path) == [Param(name)] + Compile(rest) by {
        CompileParamStep(path);
      }
      assert Source([Param(name)] + Compile(rest)) == ":" + name + rest by {
        SourceCons(Param(name), Compile(rest));
        CompileSource(rest);
      }
      assert path == ":" + name + rest by {
        assert path[1..] == path[1..][..|name|] + path[1..][|name|..];
        assert path == [path[0]] + path[1..];
      }
    } else {
      assert Compile(path) == PrependChar(path[0], Compile(path[1..])) by {
        CompileCharStep(path);
      }
      assert Source(PrependChar(path[0], Compile(path[1..]))) == [path[0]] + path[1..] by {
        SourcePrepend(path[0], Compile(path[1..]));
        CompileSource(path[1..]);
      }
      assert path == [path[0]] + path[1..];
    }
  }

  /** Every placeholder of a compiled pattern has a non-empty `[A-Za-z0-9_]+` name. */
  predicate NamesAreIdentifiers(p: Pattern)
  {
    forall i :: 0 <= i < |p| && p[i].Param? ==>
      |p[i].name| >= 1 && forall k :: 0 <= k < |p[i].name| ==> IsIdentChar(p[i].name[k])
  }

  lemma {:induction false} CompileNames(path: string)
    ensures NamesAreIdentifiers(Compile(path))
    decreases |path|
  {
    if path == [] {
    } else if path[0] == ':' && |path| > 1 && IsIdentChar(path[1]) {
      var name := IdentRun(path[1..]);
      CompileNames(path[1 + |name|..]);
      NamesCons(Param(name), Compile(path[1 + |name|..]));
    } else {
      CompileNames(path[1..]);
      var rest := Compile(path[1..]);
      if rest != [] && rest[0].Lit? {
        NamesCons(rest[0], rest[1..]);
        assert rest == [rest[0]] + rest[1..];
        NamesCons(Lit([path[0]] + rest[0].text), rest[1..]);
      } else {
        NamesCons(Lit([path[0]]), rest);
      }
    }
  }

  /** The placeholder names of `[x] + p` are identifiers exactly when those of `p` are and `x`'s is. */
  lemma NamesCons(x: Token, p: Pattern)
    ensures NamesAreIdentifiers([x] + p) <==>
      NamesAreIdentifiers(p) && (x.Param? ==> |x.name| >= 1 && forall k :: 0 <= k < |x.name| ==> IsIdentChar(x.name[k]))
  {
    var q := [x] + p;
    assert q[0] == x;
    assert forall i :: 1 <= i < |q| ==> q[i] == p[i - 1];
    if NamesAreIdentifiers(q) {
      forall i | 0 <= i < |p| && p[i].Param?
        ensures |p[i].name| >= 1 && forall k :: 0 <= k < |p[i].name| ==> IsIdentChar(p[i].name[k])
      {
        assert q[i + 1] == p[i];
      }
    }
  }

  /** No `:` in the text is followed by an identifier character, so no placeholder hides in it. */
  predicate LitFree(t: string)
  {
    forall k :: 0 <= k < |t| - 1 ==> !(t[k] == ':' && IsIdentChar(t[k + 1]))
  }

  /**
   * The patterns compilation produces: literals are non-empty, hide no
   * placeholder and never sit next to each other; names are non-empty
   * identifiers; and a literal after a placeholder does not start with an
   * identifier character, which the name would have taken.
   */
  predicate Canonical(p: Pattern)
  {
    p == [] ||
    ((match p[0]
      case Lit(t) => t != [] && LitFree(t) && (|p| == 1 || p[1].Param?)
      case Param(n) =>
        && n != []
        && (forall k :: 0 <= k < |n| ==> IsIdentChar(n[k]))
        && (|p| == 1 || p[1].Param? || p[1].text == [] || !IsIdentChar(p[1].text[0])))
     && Canonical(p[1..]))
  }

  /** A compiled pattern is empty only for the empty template, and a leading literal starts with the template's first character. */
  lemma CompileHead(s: string)
    ensures s == [] <==> Compile(s) == []
    ensures Compile(s) != [] && Compile(s)[0].Lit? ==> Compile(s)[0].text != [] && Compile(s)[0].text[0] == s[0]
  {
  }

  lemma LitFreeCons(c: char, t: string)
    requires LitFree(t)
    requires t == [] || !(c == ':' && IsIdentChar(t[0]))
    ensures LitFree([c] + t)
  {
    assert forall k :: 1 <= k < |[c] + t| ==> ([c] + t)[k] == t[k - 1];
  }

  /** Compilation recognises every placeholder: what it produces is canonical. */
  lemma {:induction false} CompileCanonical(path: string)
    ensures Canonical(Compile(path))
    decreases |path|
  {
    if path == [] {
    } else if path[0] == ':' && |path| > 1 && IsIdentChar(path[1]) {
      var name := IdentRun(path[1..]);
      var rest := path[1 + |name|..];
      assert name != [] by {
        assert path[1..][0] == path[1];
      }
      CompileCanonical(rest);
      CompileHead(rest);
      if rest != [] {
        assert rest[0] == path[1..][|name|];
      }
      CompileParamStep(path);
      var p := [Param(name)] + Compile(rest);
      assert p[0] == Param(name) && p[1..] == Compile(rest);
    } else {
      CompileCharStep(path);
      var r := Compile(path[1..]);
      CompileCanonical(path[1..]);
      CompileHead(path[1..]);
      if r != [] && r[0].Lit? {
        var t := r[0].text;
        LitFreeCons(path[0], t);
        var p := [Lit([path[0]] + t)] + r[1..];
        assert p[1..] == r[1..];
      } else {
        var p := [Lit([path[0]])] + r;
        assert p[1..] == r;
        LitFreeCons(path[0], []);
      }
    }
  }

  /** An identifier followed by a non-identifier character (or nothing) is exactly the run a `:name` token takes. */
  lemma {:induction false} IdentRunOf(n: string, s: string)
    requires forall k :: 0 <= k < |n| ==> IsIdentChar(n[k])
    requires s == [] || !IsIdentChar(s[0])
    ensures IdentRun(n + s) == n
  {
    if n == [] {
      assert n + s == s;
    } else {
      assert (n + s)[1..] == n[1..] + s;
      IdentRunOf(n[1..], s);
      assert [n[0]] + n[1..] == n;
    }
  }

  /** The template of a canonical pattern starts with what its first token writes. */
  lemma SourceHead(q: Pattern)
    ensures q == [] ==> Source(q) == []
    ensures q != [] && q[0].Param? ==> Source(q) != [] && Source(q)[0] == ':'
    ensures q != [] && q[0].Lit? ==> |q[0].text| <= |Source(q)| && Source(q)[..|q[0].text|] == q[0].text
  {
  }

  /**
   * Every canonical pattern is what its own template compiles to: compilation
   * turns exactly the `:name` runs into placeholders and keeps the rest literal.
   */
  lemma {:induction false} SourceCompile(p: Pattern)
    requires Canonical(p)
    ensures Compile(Source(p)) == p
    decreases |p|
  {
    if p != [] {
      SourceCompile(p[1..]);
      assert p == [p[0]] + p[1..];
      assert p[1..] == [] || p[1..][0] == p[1];
      match p[0]
      case Param(n) => SourceCompileParam(n, p[1..]);
      case Lit(t) => SourceCompileLit(t, p[1..]);
    }
  }

  /** A `:` and a whole identifier run compile to one placeholder in front of the rest. */
  lemma CompileParamPrefix(n: string, s: string)
    requires n != [] && forall k :: 0 <= k < |n| ==> IsIdentChar(n[k])
    requires s == [] || !IsIdentChar(s[0])
    ensures Compile(":" + n + s) == [Param(n)] + Compile(s)
  {
    var path := ":" + n + s;
    assert IdentRun(path[1..]) == n by {
      assert path[1..] == n + s;
      IdentRunOf(n, s);
    }
    assert path[1 + |n|..] == s;
    assert path[1] == n[0];
    CompileParamStep(path);
  }

  lemma SourceCompileParam(n: string, q: Pattern)
    requires n != [] && forall k :: 0 <= k < |n| ==> IsIdentChar(n[k])
    requires q == [] || q[0].Param? || (q[0].text != [] && !IsIdentChar(q[0].text[0]))
    requires Compile(Source(q)) == q
    ensures Compile(Source([Param(n)] + q)) == [Param(n)] + q
  {
    assert Source([Param(n)] + q) == ":" + n + Source(q) by {
      assert ([Param(n)] + q)[1..] == q;
    }
    SourceHead(q);
    CompileParamPrefix(n, Source(q));
  }

  lemma SourceCompileLit(t: string, q: Pattern)
    requires t != [] && LitFree(t)
    requires q == [] || q[0].Param?
    requires Compile(Source(q)) == q
    ensures Compile(Source([Lit(t)] + q)) == [Lit(t)] + q
  {
    var s := Source(q);
    SourceHead(q);
    CompileLiteral(t, s);
    assert ([Lit(t)] + q)[1..] == q;
    assert Source([Lit(t)] + q) == t + s;
  }

  /** The placeholder names of a pattern, in order. */
  function Names(p: Pattern): (r: seq<string>)
    ensures |r| <= |p|
  {
    if p == [] then []
    else if p[0].Param? then [p[0].name] + Names(p[1..])
    else Names(p[1..])
  }

  /**
   * PCRE refuses a pattern whose group names repeat or start with a digit;
   * `preg_match` then fails, and dispatch treats that as no match.
   */
  predicate Compiles(p: Pattern)
  {
    var names := Names(p);
    && (forall i, j :: 0 <= i < j < |names| ==> names[i] != names[j])
    && (forall i :: 0 <= i < |names| ==> names[i] != [] && !IsDigit(names[i][0]))
  }

  // ---- matching -----------------------------------------------------------------

  /** Length of the longest `/`-free prefix: the most one placeholder can capture. */
  function SegmentLength(s: string): (n: nat)
    ensures n <= |s|
    ensures '/' !in s[..n]
    ensures n == |s| || s[n] == '/'
  {
    if s == [] || s[0] == '/' then 0
    else
      var n := SegmentLength(s[1..]);
      assert s[..n + 1] == [s[0]] + s[1..][..n];
      n + 1
  }

  /**
   * `preg_match('#^...$#', path)`: the captures of the placeholders, in order.
   * A placeholder takes one or more non-`/` characters, trying the longest
   * first and backing off, as PCRE's greedy `[^/]+` does. As in PCRE without
   * the `D` modifier, `$` also matches just before a final newline.
   */
  function Match(p: Pattern, path: string): Option<seq<string>>
    decreases |p|, 1, 0
  {
    if p == [] then
      if EndOfSubject(path) then Some([]) else None
    else
      match p[0]
      case Lit(t) => if StartsWith(path, t) then Match(p[1..], path[|t|..]) else None
      case Param(_) => TryLengths(p[1..], path, SegmentLength(path))
  }

  /** Backtracking for a placeholder: the first capture length from `k` down to 1 after which the rest matches. */
  function TryLengths(rest: Pattern, path: string, k: nat): Option<seq<string>>
    requires k <= |path|
    decreases |rest| + 1, 0, k
  {
    if k == 0 then None
    else
      match Match(rest, path[k..])
      case Some(caps) => Some([path[..k]] + caps)
      case None => TryLengths(rest, path, k - 1)
  }

  /** What PCRE's `$` accepts as the rest of the subject. */
  predicate EndOfSubject(rest: string)
  {
    rest == [] || rest == "\n"
  }

  /** `path` is `filled`, allowing the one trailing newline `$` lets through. */
  predicate Anchored(filled: string, path: string)
  {
    path == filled || path == filled + "\n"
  }

  /** Number of placeholders. */
  function Arity(p: Pattern): nat
  {
    |Names(p)|
  }

  /** A legal capture: non-empty and without `/`. */
  predicate Segment(s: string)
  {
    s != [] && '/' !in s
  }

  predicate Segments(caps: seq<string>)
  {
    forall i :: 0 <= i < |caps| ==> Segment(caps[i])
  }

  /** The path a pattern describes when its placeholders are filled with `caps`. */
  function Fill(p: Pattern, caps: seq<string>): string
    requires |caps| == Arity(p)
  {
    if p == [] then []
    else
      match p[0]
      case Lit(t) => t + Fill(p[1..], caps)
      case Param(_) => caps[0] + Fill(p[1..], caps[1..])
  }

  /** A match accounts for the whole path: the captures are legal and fill the pattern to exactly the path. */
  lemma {:induction false} MatchSound(p: Pattern, path: string)
    requires Match(p, path).Some?
    ensures |Match(p, path).value| == Arity(p)
    ensures Segments(Match(p, path).value)
    ensures Anchored(Fill(p, Match(p, path).value), path)
    decreases |p|, 1, 0
  {
    if p != [] {
      match p[0]
      case Lit(t) =>
        MatchSound(p[1..], path[|t|..]);
        var f := Fill(p[1..], Match(p, path).value);
        assert path == t + path[|t|..];
        assert (t + f) + "\n" == t + (f + "\n");
      case Param(_) =>
        TryLengthsSound(p[1..], path, SegmentLength(path));
    }
  }

  lemma {:induction false} TryLengthsSound(rest: Pattern, path: string, k: nat)
    requires k <= SegmentLength(path)
    requires TryLengths(rest, path, k).Some?
    ensures |TryLengths(rest, path, k).value| == Arity(rest) + 1
    ensures Segments(TryLengths(rest, path, k).value)
    ensures Anchored(TryLengths(rest, path, k).value[0] + Fill(rest, TryLengths(rest, path, k).value[1..]), path)
    decreases |rest| + 1, 0, k
  {
    match Match(rest, path[k..])
    case Some(caps) =>
      MatchSound(rest, path[k..]);
      var r := [path[..k]] + caps;
      assert TryLengths(rest, path, k).value == r;
      assert r[0] == path[..k] && r[1..] == caps;
      SegmentPrefix(path, k);
      SegmentsCons(path[..k], caps);
      AnchoredCons(path[..k], Fill(rest, caps), path[k..]);
      assert path[..k] + path[k..] == path;
    case None =>
      TryLengthsSound(rest, path, k - 1);
  }

  lemma SegmentPrefix(path: string, k: nat)
    requires 1 <= k <= SegmentLength(path)
    ensures Segment(path[..k])
  {
    assert path[..k] == path[..SegmentLength(path)][..k];
  }

  lemma SegmentsCons(c: string, caps: seq<string>)
    requires Segment(c) && Segments(caps)
    ensures Segments([c] + caps)
  {
    assert forall i :: 1 <= i < |[c] + caps| ==> ([c] + caps)[i] == caps[i - 1];
  }

  lemma AnchoredCons(x: string, filled: string, path: string)
    requires Anchored(filled, path)
    ensures Anchored(x + filled, x + path)
  {
    assert (x + filled) + "\n" == x + (filled + "\n");
  }

  /**
   * Any legal filling of the pattern is matched, with or without the one final
   * newline PCRE's `$` lets through: the matcher misses no path the pattern describes.
   */
  lemma {:induction false} MatchComplete(p: Pattern, caps: seq<string>, path: string)
    requires |caps| == Arity(p)
    requires Segments(caps)
    requires Anchored(Fill(p, caps), path)
    ensures Match(p, path).Some?
  {
    if p != [] {
      match p[0]
      case Lit(t) =>
        var f := Fill(p[1..], caps);
        assert Fill(p, caps) == t + f;
        assert (t + f) + "\n" == t + (f + "\n");
        assert path[..|t|] == t && path[|t|..] in {f, f + "\n"};
        MatchComplete(p[1..], caps, path[|t|..]);
      case Param(_) =>
        var c := caps[0];
        var f := Fill(p[1..], caps[1..]);
        assert Segments(caps[1..]) by {
          assert forall i :: 0 <= i < |caps[1..]| ==> caps[1..][i] == caps[i + 1];
        }
        assert Fill(p, caps) == c + f;
        assert (c + f) + "\n" == c + (f + "\n");
        assert path[..|c|] == c && path[|c|..] in {f, f + "\n"};
        MatchComplete(p[1..], caps[1..], path[|c|..]);
        SegmentCovers(path, c);
        TryLengthsFinds(p[1..], path, SegmentLength(path), |c|);
    }
  }

  lemma SegmentCovers(path: string, c: string)
    requires Segment(c)
    requires StartsWith(path, c)
    ensures |c| <= SegmentLength(path)
  {
  }

  /** Backtracking finds a capture length whenever some length from 1 to `k` lets the rest match. */
  lemma {:induction false} TryLengthsFinds(rest: Pattern, path: string, k: nat, j: nat)
    requires k <= |path|
    requires 1 <= j <= k
    requires Match(rest, path[j..]).Some?
    ensures TryLengths(rest, path, k).Some?
    decreases k
  {
    if Match(rest, path[k..]).None? {
      TryLengthsFinds(rest, path, k - 1, j);
    }
  }

  /** The captures bound to their placeholder names (PHP keeps only the named groups). */
  function Bind(names: seq<string>, caps: seq<string>): (m: map<string, string>)
    requires |names| == |caps|
    ensures m.Keys == set i | 0 <= i < |names| :: names[i]
  {
    if names == [] then map[]
    else
      var m := Bind(names[1..], caps[1..])[names[0] := caps[0]];
      assert m.Keys == set i | 0 <= i < |names| :: names[i] by {
        forall x | x in m.Keys
          ensures exists i :: 0 <= i < |names| && names[i] == x
        {
          if x != names[0] {
            var i :| 0 <= i < |names[1..]| && names[1..][i] == x;
            assert names[i + 1] == x;
          }
        }
      }
      m
  }

  /** With distinct names every name is bound to its own capture. */
  lemma {:induction false} BindAt(names: seq<string>, caps: seq<string>)
    requires |names| == |caps|
    requires forall i, j :: 0 <= i < j < |names| ==> names[i] != names[j]
    ensures forall i :: 0 <= i < |names| ==> Bind(names, caps)[names[i]] == caps[i]
  {
    if names != [] {
      BindAt(names[1..], caps[1..]);
      forall i | 1 <= i < |names|
        ensures Bind(names, caps)[names[i]] == caps[i]
      {
        assert names[i] == names[1..][i - 1];
      }
    }
  }

  // ---- the route table ----------------------------------------------------------

  /**
   * A registered route: its method, its full path template and its handler
   * (the callable, which the model does not run). The template is compiled by
   * `Compile` when it is matched; compiling is pure, so this is the same as
   * compiling at registration.
   */
  datatype Route = Route(verb: string, path: string, handler: nat)

  /** The compiled template of a route. */
  function PatternOf(r: Route): Pattern
  {
    Compile(r.path)
  }

  /** Routes in registration order, and the prefix of the group being registered. */
  datatype Table = Table(routes: seq<Route>, prefix: string)

  const Empty: Table := Table([], "")

  /** `add($method, $path, $handler)`: appends a route whose template is the current prefix followed by the path. */
  function Add(t: Table, verb: string, path: string, handler: nat): Table
  {
    t.(routes := t.routes + [Route(verb, t.prefix + path, handler)])
  }

  /**
   * Routes are kept in registration order: `add` appends one route, for the
   * given method and handler, whose compiled pattern reads back as the current
   * prefix followed by the path.
   */
  lemma AddAppends(t: Table, verb: string, path: string, handler: nat)
    ensures var r := Add(t, verb, path, handler);
      && r.prefix == t.prefix
      && |r.routes| == |t.routes| + 1 && r.routes[..|t.routes|] == t.routes
      && Source(PatternOf(r.routes[|t.routes|])) == t.prefix + path
      && r.routes[|t.routes|].verb == verb && r.routes[|t.routes|].handler == handler
  {
    CompileSource(t.prefix + path);
    var r := Add(t, verb, path, handler);
    assert r.routes[..|t.routes|] == t.routes;
  }

  /** A group callback, as the registrations it makes. */
  datatype Registration =
    | Register(verb: string, path: string, handler: nat)
    | Group(prefix: string, body: seq<Registration>)

  /**
   * Runs registrations in order. `group($prefix, $cb)` appends the prefix, runs
   * the callback, then puts the previous prefix back.
   */
  function Run(t: Table, regs: seq<Registration>): Table
    decreases regs
  {
    if regs == [] then t
    else
      match regs[0]
      case Register(m, p, h) => Run(Add(t, m, p, h), regs[1..])
      case Group(pre, body) =>
        var inner := Run(t.(prefix := t.prefix + pre), body);
        Run(inner.(prefix := t.prefix), regs[1..])
  }

  /** The routes a registration program declares, each full path spelled out from the enclosing prefixes. */
  function Declarations(prefix: string, regs: seq<Registration>): seq<Route>
    decreases regs
  {
    if regs == [] then []
    else
      match regs[0]
      case Register(m, p, h) => [Route(m, prefix + p, h)] + Declarations(prefix, regs[1..])
      case Group(pre, body) => Declarations(prefix + pre, body) + Declarations(prefix, regs[1..])
  }

  /**
   * Scoped group prefixes are the same as threading the prefix explicitly:
   * running a program appends exactly its declarations, in order, and leaves
   * the prefix as it was.
   */
  lemma {:induction false} RunDeclares(t: Table, regs: seq<Registration>)
    ensures Run(t, regs) == Table(t.routes + Declarations(t.prefix, regs), t.prefix)
    decreases regs
  {
    if regs != [] {
      match regs[0]
      case Register(m, p, h) =>
        RunDeclares(Add(t, m, p, h), regs[1..]);
        assert Declarations(t.prefix, regs) == [Route(m, t.prefix + p, h)] + Declarations(t.prefix, regs[1..]);
      case Group(pre, body) =>
        var t1 := t.(prefix := t.prefix + pre);
        RunDeclares(t1, body);
        RunDeclares(Run(t1, body).(prefix := t.prefix), regs[1..]);
        assert Declarations(t.prefix, regs) == Declarations(t.prefix + pre, body) + Declarations(t.prefix, regs[1..]);
    }
  }

  /** Nested groups concatenate their prefixes, and registration after a group sees the outer prefix again. */
  lemma NestedGroups(a: string, b: string, m: string, p: string, q: string, h1: nat, h2: nat)
    ensures Declarations("", [Group(a, [Group(b, [Register(m, p, h1)])]), Register(m, q, h2)])
      == [Route(m, a + b + p, h1), Route(m, q, h2)]
  {
    var inner := [Group(b, [Register(m, p, h1)])];
    assert Declarations(a + b, [Register(m, p, h1)]) == [Route(m, a + b + p, h1)];
    assert Declarations(a, inner) == [Route(m, a + b + p, h1)] + Declarations(a, []);
    assert Declarations("", [Register(m, q, h2)]) == [Route(m, "" + q, h2)];
    assert "" + a == a;
    assert "" + q == q;
  }

  // ---- dispatch -----------------------------------------------------------------

  /**
   * The path routes are matched against: the script directory is cut off the
   * front when it is not "/" and the path starts with it; an empty result is "/".
   */
  function StripBase(scriptDir: string, path: string): (r: string)
    ensures r != []
    ensures scriptDir != "/" && StartsWith(path, scriptDir) && |path| > |scriptDir| ==> r == path[|scriptDir|..]
    ensures (scriptDir == "/" || !StartsWith(path, scriptDir)) && path != [] ==> r == path
    ensures scriptDir != "/" && StartsWith(path, scriptDir) && |path| == |scriptDir| ==> r == "/"
    ensures path == [] ==> r == "/"
  {
    var p := if scriptDir != "/" && StartsWith(path, scriptDir) then path[|scriptDir|..] else path;
    if p == [] then "/" else p
  }

  /** Prefixing a non-empty path with the script directory and stripping gives the path back. */
  lemma StripBasePrefixed(scriptDir: string, rest: string)
    requires scriptDir != "/" && rest != []
    ensures StripBase(scriptDir, scriptDir + rest) == rest
  {
    assert (scriptDir + rest)[..|scriptDir|] == scriptDir;
    assert (scriptDir + rest)[|scriptDir|..] == rest;
  }

  /** The directory test is a plain string prefix, not a path-segment prefix: "/api" also strips "/apiary". */
  lemma StripBaseIsTextual()
    ensures StripBase("/api", "/api/users") == "/users"
    ensures StripBase("/api", "/api") == "/"
    ensures StripBase("/api", "/apiary") == "ary"
    ensures StripBase("/", "/users") == "/users"
  {
    assert StartsWith("/api/users", "/api");
    assert "/api/users"[4..] == "/users";
    assert StartsWith("/apiary", "/api");
    assert "/apiary"[4..] == "ary";
    assert StartsWith("/api", "/api");
  }

  /** The captures a route yields for a request: the method must be equal and the pattern must compile and match. */
  function RouteMatch(r: Route, verb: string, path: string): Option<seq<string>>
  {
    if r.verb != verb || !Compiles(PatternOf(r)) then None else Match(PatternOf(r), path)
  }

  /** The first route at or after `from` that matches, with its captures. */
  function FirstMatch(routes: seq<Route>, verb: string, path: string, from: nat): (r: Option<(nat, seq<string>)>)
    requires from <= |routes|
    ensures r.Some? ==> from <= r.value.0 < |routes| && RouteMatch(routes[r.value.0], verb, path) == Some(r.value.1)
    ensures r.Some? ==> forall j :: from <= j < r.value.0 ==> RouteMatch(routes[j], verb, path).None?
    ensures r.None? ==> forall j :: from <= j < |routes| ==> RouteMatch(routes[j], verb, path).None?
    decreases |routes| - from
  {
    if from == |routes| then None
    else
      match RouteMatch(routes[from], verb, path)
      case Some(caps) => Some((from, caps))
      case None => FirstMatch(routes, verb, path, from + 1)
  }

  /** What dispatch does with a request: hand it to a route with its path parameters, or answer an error. */
  datatype Outcome = Handled(route: nat, params: map<string, string>) | Error(code: int, message: string)

  /**
   * `dispatch($ctx)`: strips the base directory, scans the routes in
   * registration order and hands the request to the first whose method and
   * pattern match; otherwise a 404 naming the path.
   */
  function Dispatch(t: Table, verb: string, scriptDir: string, path: string): (o: Outcome)
    ensures o.Handled? ==> o.route < |t.routes|
    ensures o.Error? ==> o == Error(404, "Not Found: " + StripBase(scriptDir, path))
  {
    var p := StripBase(scriptDir, path);
    match FirstMatch(t.routes, verb, p, 0)
    case Some((i, caps)) =>
      MatchSound(PatternOf(t.routes[i]), p);
      Handled(i, Bind(Names(PatternOf(t.routes[i])), caps))
    case None => Error(404, "Not Found: " + p)
  }

  /**
   * Dispatch picks route `i` exactly when route `i` matches the request and no
   * earlier route does; a route whose method differs is passed over like one
   * whose pattern does not match.
   */
  lemma DispatchFirstMatch(t: Table, verb: string, scriptDir: string, path: string, i: nat)
    requires i < |t.routes|
    ensures Dispatch(t, verb, scriptDir, path).Handled? && Dispatch(t, verb, scriptDir, path).route == i
      <==>
      RouteMatch(t.routes[i], verb, StripBase(scriptDir, path)).Some? &&
      forall j :: 0 <= j < i ==> RouteMatch(t.routes[j], verb, StripBase(scriptDir, path)).None?
  {
    var p := StripBase(scriptDir, path);
    var f := FirstMatch(t.routes, verb, p, 0);
    if RouteMatch(t.routes[i], verb, p).Some? &&
      forall j :: 0 <= j < i ==> RouteMatch(t.routes[j], verb, p).None?
    {
      assert f.Some?;
    }
  }

  /** A request is answered 404 exactly when no route matches it. */
  lemma DispatchNotFound(t: Table, verb: string, scriptDir: string, path: string)
    ensures Dispatch(t, verb, scriptDir, path).Error? <==>
      forall j :: 0 <= j < |t.routes| ==> RouteMatch(t.routes[j], verb, StripBase(scriptDir, path)).None?
  {
    var p := StripBase(scriptDir, path);
    var f := FirstMatch(t.routes, verb, p, 0);
  }

  /**
   * The parameters handed to the route are exactly its placeholder names, each
   * bound to a non-empty `/`-free piece of the path, and filling the route's
   * pattern with them gives back the whole (stripped) path, up to the final
   * newline `$` tolerates.
   */
  lemma DispatchParams(t: Table, verb: string, scriptDir: string, path: string)
    requires Dispatch(t, verb, scriptDir, path).Handled?
    ensures var o := Dispatch(t, verb, scriptDir, path);
      var pat := PatternOf(t.routes[o.route]);
      var names := Names(pat);
      && o.params.Keys == (set k | 0 <= k < |names| :: names[k])
      && (forall k :: 0 <= k < |names| ==> Segment(o.params[names[k]]))
      && Anchored(Fill(pat, seq(|names|, k requires 0 <= k < |names| => o.params[names[k]])), StripBase(scriptDir, path))
  {
    var p := StripBase(scriptDir, path);
    var f := FirstMatch(t.routes, verb, p, 0).value;
    var pat := PatternOf(t.routes[f.0]);
    var names := Names(pat);
    MatchSound(pat, p);
    BindAt(names, f.1);
    var o := Dispatch(t, verb, scriptDir, path);
    assert seq(|names|, k requires 0 <= k < |names| => o.params[names[k]]) == f.1;
  }

  /** Placeholder-free text in front of a placeholder (or the end) compiles to one literal. */
  lemma {:induction false} CompileLiteral(lit: string, rest: string)
    requires lit != [] && LitFree(lit)
    requires rest == [] || rest[0] == ':'
    requires Compile(rest) == [] || Compile(rest)[0].Param?
    ensures Compile(lit + rest) == [Lit(lit)] + Compile(rest)
    decreases |lit|
  {
    var s := lit + rest;
    assert s[1..] == lit[1..] + rest;
    assert Compile(s) == PrependChar(lit[0], Compile(lit[1..] + rest)) by {
      assert s[0] == lit[0];
      if |lit| > 1 {
        assert s[1] == lit[1];
      } else if rest != [] {
        assert s[1] == rest[0];
      }
      CompileCharStep(s);
    }
    if |lit| == 1 {
      assert lit[1..] + rest == rest;
      PrependBeforeParam(lit[0], Compile(rest));
      assert [lit[0]] == lit;
    } else {
      assert Compile(lit[1..] + rest) == [Lit(lit[1..])] + Compile(rest) by {
        assert forall k :: 0 <= k < |lit| - 1 ==> lit[1..][k] == lit[k + 1];
        CompileLiteral(lit[1..], rest);
      }
      PrependToLit(lit[0], lit[1..], Compile(rest));
      assert [lit[0]] + lit[1..] == lit;
    }
  }

  lemma PrependBeforeParam(c: char, q: Pattern)
    requires q == [] || q[0].Param?
    ensures PrependChar(c, q) == [Lit([c])] + q
  {
  }

  lemma PrependToLit(c: char, t: string, q: Pattern)
    ensures PrependChar(c, [Lit(t)] + q) == [Lit([c] + t)] + q
  {
    assert ([Lit(t)] + q)[1..] == q;
  }

  /** `/users/:id` compiles to the literal `/users/` and the placeholder `id`. */
  lemma CompileUsersId()
    ensures Compile("/users/:id") == [Lit("/users/"), Param("id")]
  {
    assert IdentRun("id") == "id";
    assert ":id"[3..] == [];
    assert Compile(":id") == [Param("id")];
    assert LitFree("/users/") by {
      assert ':' !in "/users/";
    }
    CompileLiteral("/users/", ":id");
    assert "/users/" + ":id" == "/users/:id";
  }

  /** A table holding the two routes of the examples below: a fixed path registered before a placeholder path. */
  predicate IsUsersTable(t: Table)
  {
    t.routes == [Route("GET", "/users/me", 0), Route("GET", "/users/:id", 1)]
  }

  /** The compiled patterns of the two example routes. */
  lemma UsersPatterns(t: Table)
    requires IsUsersTable(t)
    ensures PatternOf(t.routes[0]) == [Lit("/users/me")] && Compiles(PatternOf(t.routes[0]))
    ensures PatternOf(t.routes[1]) == [Lit("/users/"), Param("id")] && Compiles(PatternOf(t.routes[1]))
  {
    assert LitFree("/users/me") by {
      assert ':' !in "/users/me";
    }
    CompileLiteral("/users/me", "");
    assert "/users/me" + "" == "/users/me";
    CompileUsersId();
    UsersCompile();
  }

  /** Neither example pattern repeats a group name or starts one with a digit. */
  lemma UsersCompile()
    ensures Compiles([Lit("/users/me")]) && Compiles([Lit("/users/"), Param("id")])
  {
    assert Names([Lit("/users/"), Param("id")]) == ["id"];
  }

  /** The fixed route wins for its own path although the placeholder route would match it too. */
  lemma UsersMeExample(t: Table)
    requires IsUsersTable(t)
    ensures Dispatch(t, "GET", "/", "/users/me") == Handled(0, map[])
  {
    UsersPatterns(t);
    assert StartsWith("/users/me", "/users/me");
    assert "/users/me"[9..] == [];
    assert Match([Lit("/users/me")], "/users/me") == Some([]);
    assert RouteMatch(t.routes[0], "GET", "/users/me") == Some([]);
  }

  /**
   * Other paths fall through to the placeholder route, which receives the
   * captured segment; methods are compared exactly, so a POST finds nothing.
   */
  lemma UsersIdExample(t: Table)
    requires IsUsersTable(t)
    ensures Dispatch(t, "GET", "/", "/users/42") == Handled(1, map["id" := "42"])
    ensures Dispatch(t, "POST", "/", "/users/42") == Error(404, "Not Found: " + "/users/42")
  {
    UsersPatterns(t);
    var path := "/users/42";
    assert StripBase("/", path) == path;
    assert path[7] != "/users/me"[7];
    assert !StartsWith(path, "/users/me");
    assert RouteMatch(t.routes[0], "GET", path) == None;
    IdMatch();
    assert RouteMatch(t.routes[1], "GET", path) == Some(["42"]);
    assert FirstMatch(t.routes, "GET", path, 1) == Some((1, ["42"]));
    assert FirstMatch(t.routes, "GET", path, 0) == Some((1, ["42"]));
    assert Names(PatternOf(t.routes[1])) == ["id"];
    assert Bind(["id"], ["42"]) == map["id" := "42"];
    assert RouteMatch(t.routes[0], "POST", path) == None;
    assert RouteMatch(t.routes[1], "POST", path) == None;
    assert FirstMatch(t.routes, "POST", path, 1) == None;
  }

  /** The placeholder route captures the segment after `/users/`. */
  lemma IdMatch()
    ensures Match([Lit("/users/"), Param("id")], "/users/42") == Some(["42"])
  {
    assert StartsWith("/users/42", "/users/");
    assert "/users/42"[7..] == "42";
    assert SegmentLength("42") == 2 by {
      assert "42"[1..] == "2";
      assert "2"[1..] == [];
    }
    assert "42"[2..] == [];
    assert Match([], "42"[2..]) == Some([]);
    assert "42"[..2] == "42";
    assert TryLengths([], "42", 2) == Some(["42"[..2]] + []);
    assert ["42"[..2]] + [] == ["42"];
    var pid := [Param("id")];
    assert pid[1..] == [];
    assert Match(pid, "42") == TryLengths(pid[1..], "42", SegmentLength("42"));
    assert Match(pid, "42") == Some(["42"]);
    assert [Lit("/users/"), Param("id")][1..] == [Param("id")];
  }

  /** A placeholder never spans a `/`, and the pattern is anchored at the end. */
  lemma UsersNestedExample(t: Table)
    requires IsUsersTable(t)
    ensures Dispatch(t, "GET", "/", "/users/42/posts") == Error(404, "Not Found: " + "/users/42/posts")
  {
    var path := "/users/42/posts";
    UsersPatterns(t);
    assert StripBase("/", path) == path;
    NestedMissesMe();
    assert RouteMatch(t.routes[0], "GET", path) == None;
    NestedPathNoMatch();
    assert RouteMatch(t.routes[1], "GET", path) == None;
    assert FirstMatch(t.routes, "GET", path, 1) == None;
  }

  /** The fixed route does not match a longer path. */
  lemma NestedMissesMe()
    ensures Match([Lit("/users/me")], "/users/42/posts") == None
  {
    assert "/users/42/posts"[..9][7] != "/users/me"[7];
  }

  /** The placeholder cannot take `42/posts`, and `42` leaves `/posts` unmatched. */
  lemma NestedPathNoMatch()
    ensures Match([Lit("/users/"), Param("id")], "/users/42/posts") == None
  {
    assert StartsWith("/users/42/posts", "/users/");
    assert "/users/42/posts"[7..] == "42/posts";
    assert SegmentLength("42/posts") == 2 by {
      assert "42/posts"[1..] == "2/posts";
      assert "2/posts"[1..] == "/posts";
    }
    assert TryLengths([], "42/posts", 2) == None by {
      assert "42/posts"[2..] == "/posts";
      assert "42/posts"[1..] == "2/posts";
    }
  }
}

=== FILE: sanitize.dfy ===
/**
 * `Security::sanitize`: every scalar leaf of a (possibly nested) array is
 * converted to a string and passed through `htmlspecialchars` with
 * `ENT_QUOTES`; arrays keep their keys, order and nesting.
 */
module Sanitize {
  import opened Seqs
  import opened Php

  /** The five characters `htmlspecialchars` replaces under `ENT_QUOTES`. */
  predicate IsSpecial(c: char)
  {
    c == '&' || c == '"' || c == '\'' || c == '<' || c == '>'
  }

  /** The replacement of one character. */
  function EscapeChar(c: char): string
  {
    match c
    case '&' => "&amp;"
    case '"' => "&quot;"
    case '\'' => "&#039;"
    case '<' => "&lt;"
    case '>' => "&gt;"
    case _ => [c]
  }

  /** `htmlspecialchars($s, ENT_QUOTES, 'UTF-8')`. */
  function Escape(s: string): (r: string)
    ensures |r| >= |s|
    ensures forall i :: 0 <= i < |r| ==> r[i] != '"' && r[i] != '\'' && r[i] != '<' && r[i] != '>'
  {
    if s == [] then [] else EscapeChar(s[0]) + Escape(s[1..])
  }

  /** Turns the five entities back into their characters; the inverse of `Escape`. */
  function Unescape(s: string): string
    decreases |s|
  {
    if s == [] then []
    else if StartsWith(s, "&amp;") then "&" + Unescape(s[5..])
    else if StartsWith(s, "&quot;") then "\"" + Unescape(s[6..])
    else if StartsWith(s, "&#039;") then "'" + Unescape(s[6..])
    else if StartsWith(s, "&lt;") then "<" + Unescape(s[4..])
    else if StartsWith(s, "&gt;") then ">" + Unescape(s[4..])
    else [s[0]] + Unescape(s[1..])
  }

  /** `s` does not start with entity `p` because their second characters differ. */
  lemma NotEntity(s: string, p: string)
    requires |s| >= 2 && |p| >= 2 && s[1] != p[1]
    ensures !StartsWith(s, p)
  {
    if |p| <= |s| {
      assert s[..|p|][1] != p[1];
    }
  }

  lemma UnescapeChar(c: char, rest: string)
    ensures Unescape(EscapeChar(c) + rest) == [c] + Unescape(rest)
  {
    if c == '<' || c == '>' {
      UnescapeAngle(c, rest);
    } else if IsSpecial(c) {
      UnescapeAmpQuote(c, rest);
    } else {
      assert EscapeChar(c) == [c];
      UnescapePlain(c, rest);
    }
  }

  /** A character other than `&` starts no entity and is kept as it is. */
  lemma UnescapePlain(c: char, rest: string)
    requires c != '&'
    ensures Unescape([c] + rest) == [c] + Unescape(rest)
  {
    var s := [c] + rest;
    assert s[0] == c && s[1..] == rest;
    assert !StartsWith(s, "&amp;") && !StartsWith(s, "&quot;") && !StartsWith(s, "&#039;") by {
      assert forall p: string :: |p| <= |s| && p != [] && p[0] == '&' ==> s[..|p|] != p by {
        forall p: string | |p| <= |s| && p != [] && p[0] == '&'
          ensures s[..|p|] != p
        {
          assert s[..|p|][0] == c;
        }
      }
    }
    assert !StartsWith(s, "&lt;") && !StartsWith(s, "&gt;") by {
      if |s| >= 4 {
        assert s[..4][0] == c;
      }
    }
  }

  lemma UnescapeAmpQuote(c: char, rest: string)
    requires c == '&' || c == '"' || c == '\''
    ensures Unescape(EscapeChar(c) + rest) == [c] + Unescape(rest)
  {
    var s := EscapeChar(c) + rest;
    if c == '&' {
      assert s[..5] == "&amp;" && s[5..] == rest;
    } else if c == '"' {
      assert s[..6] == "&quot;" && s[6..] == rest;
      NotEntity(s, "&amp;");
    } else {
      assert s[..6] == "&#039;" && s[6..] == rest;
      NotEntity(s, "&amp;");
      NotEntity(s, "&quot;");
    }
  }

  lemma UnescapeAngle(c: char, rest: string)
    requires c == '<' || c == '>'
    ensures Unescape(EscapeChar(c) + rest) == [c] + Unescape(rest)
  {
    var s := EscapeChar(c) + rest;
    NotEntity(s, "&amp;");
    NotEntity(s, "&quot;");
    NotEntity(s, "&#039;");
    if c == '<' {
      assert s[..4] == "&lt;" && s[4..] == rest;
    } else {
      assert s[..4] == "&gt;" && s[4..] == rest;
      NotEntity(s, "&lt;");
    }
  }

  /** Escaping loses nothing: unescaping gives the original text back. */
  lemma {:induction false} UnescapeEscape(s: string)
    ensures Unescape(Escape(s)) == s
  {
    if s != [] {
      UnescapeEscape(s[1..]);
      UnescapeChar(s[0], Escape(s[1..]));
    }
  }

  /** `sanitize($data)`: arrays are walked key by key, everything else becomes an escaped string. */
  function Sanitize(v: Value): Value
  {
    match v
    case Arr(e) => Arr(seq(|e|, i requires 0 <= i < |e| => (e[i].0, Sanitize(e[i].1))))
    case _ => Str(Escape(ToString(v)))
  }

  /** Two values with the same array structure: the same keys in the same order, at every level. */
  predicate SameShape(a: Value, b: Value)
  {
    match a
    case Arr(ea) =>
      && b.Arr? && |ea| == |b.entries|
      && forall i :: 0 <= i < |ea| ==> ea[i].0 == b.entries[i].0 && SameShape(ea[i].1, b.entries[i].1)
    case _ => !b.Arr?
  }

  /** Every leaf is a string in which no `"`, `'`, `<` or `>` remains. */
  predicate Escaped(v: Value)
  {
    match v
    case Arr(e) => forall i :: 0 <= i < |e| ==> Escaped(e[i].1)
    case Str(s) => forall k :: 0 <= k < |s| ==> !IsSpecial(s[k]) || s[k] == '&'
    case _ => false
  }

  /** Sanitizing keeps every key and the nesting, and leaves only escaped strings at the leaves. */
  lemma {:induction false} SanitizeShape(v: Value)
    ensures SameShape(v, Sanitize(v))
    ensures Escaped(Sanitize(v))
  {
    if v.Arr? {
      forall i | 0 <= i < |v.entries|
        ensures SameShape(v.entries[i].1, Sanitize(v.entries[i].1))
        ensures Escaped(Sanitize(v.entries[i].1))
      {
        SanitizeShape(v.entries[i].1);
      }
    }
  }

  /** Every leaf replaced by its string conversion: what sanitizing keeps of a value. */
  function Stringify(v: Value): Value
  {
    match v
    case Arr(e) => Arr(seq(|e|, i requires 0 <= i < |e| => (e[i].0, Stringify(e[i].1))))
    case _ => Str(ToString(v))
  }

  /** Unescaping every string leaf. */
  function UnescapeAll(v: Value): Value
  {
    match v
    case Arr(e) => Arr(seq(|e|, i requires 0 <= i < |e| => (e[i].0, UnescapeAll(e[i].1))))
    case Str(s) => Str(Unescape(s))
    case _ => v
  }

  /** Sanitizing only escapes: unescaping the leaves gives back the value with each leaf as a string. */
  lemma {:induction false} SanitizeRecoverable(v: Value)
    ensures UnescapeAll(Sanitize(v)) == Stringify(v)
  {
    if v.Arr? {
      forall i | 0 <= i < |v.entries|
        ensures UnescapeAll(Sanitize(v.entries[i].1)) == Stringify(v.entries[i].1)
      {
        SanitizeRecoverable(v.entries[i].1);
      }
    } else {
      UnescapeEscape(ToString(v));
    }
  }
}

=== FILE: security.dfy ===
/**
 * The token half of core/Security.php: the base64url helpers and the
 * HS256 JSON Web Tokens of `generateToken` and `verifyToken` (the compact
 * serialization of section 7.1 of RFC 7515). HMAC-SHA256 and the JSON codec
 * are not modelled; they are functions supplied by the caller.
 */
module Security {
  import opened Wrappers
  import opened Seqs
  import opened Php
  import opened Base64
  import Env

  // ---- base64url ----------------------------------------------------------------

  /** `strtr($s, '+/', '-_')` on one character. */
  function ToUrl(c: char): char
  {
    if c == '+' then '-' else if c == '/' then '_' else c
  }

  /** `strtr($s, '-_', '+/')` on one character. */
  function FromUrl(c: char): char
  {
    if c == '-' then '+' else if c == '_' then '/' else c
  }

  /** The base64url alphabet of section 5 of RFC 4648. */
  predicate IsUrlChar(c: char)
  {
    ('A' <= c <= 'Z') || ('a' <= c <= 'z') || ('0' <= c <= '9') || c == '-' || c == '_'
  }

  /** `rtrim($s, '=')`. */
  function TrimPadding(s: string): (r: string)
    ensures |r| <= |s| && r == s[..|r|]
    ensures r == [] || r[|r| - 1] != '='
    ensures forall i :: |r| <= i < |s| ==> s[i] == '='
  {
    if s != [] && s[|s| - 1] == '=' then TrimPadding(s[..|s| - 1]) else s
  }

  /** Trimming removes exactly a padding run that follows text not ending in `=`. */
  lemma {:induction false} TrimPaddingOf(x: string, pad: string)
    requires x == [] || x[|x| - 1] != '='
    requires forall i :: 0 <= i < |pad| ==> pad[i] == '='
    ensures TrimPadding(x + pad) == x
    decreases |pad|
  {
    if pad == [] {
      assert x + pad == x;
    } else {
      assert (x + pad)[..|x + pad| - 1] == x + pad[..|pad| - 1];
      TrimPaddingOf(x, pad[..|pad| - 1]);
    }
  }

  /** One sextet written in the base64url alphabet. */
  function UrlCharOf(v: sextet): (c: char)
    ensures IsUrlChar(c) && c != '='
  {
    ToUrl(CharOf(v))
  }

  /** `base64UrlEncode`: base64, then `+/` to `-_`, then the `=` padding cut off. */
  function UrlEncode(b: Bytes): string
  {
    TrimPadding(MapSeq(Encode(b), ToUrl))
  }

  /** `base64UrlDecode`: `-_` back to `+/`, then the non-strict decoder. */
  function UrlDecode(s: string): Bytes
  {
    Decode(MapSeq(s, FromUrl))
  }

  /** A string over the base64url alphabet only. */
  predicate UrlSegment(s: string)
  {
    forall i :: 0 <= i < |s| ==> IsUrlChar(s[i])
  }

  lemma {:induction false} ToUrlOfChars(sx: seq<sextet>)
    ensures MapSeq(MapSeq(sx, CharOf), ToUrl) == MapSeq(sx, UrlCharOf)
  {
    if sx != [] {
      ToUrlOfChars(sx[1..]);
    }
  }

  lemma {:induction false} FromUrlOfUrlChars(sx: seq<sextet>)
    ensures MapSeq(MapSeq(sx, UrlCharOf), FromUrl) == MapSeq(sx, CharOf)
  {
    if sx != [] {
      FromUrlOfUrlChars(sx[1..]);
    }
  }

  lemma {:induction false} UrlCharsSegment(sx: seq<sextet>)
    ensures UrlSegment(MapSeq(sx, UrlCharOf))
  {
    MapSeqAt(sx, UrlCharOf);
  }

  /** An encoding is exactly the sextets of the input in the base64url alphabet: no `+`, `/`, `=` or `.` remain. */
  lemma UrlEncodeChars(b: Bytes)
    ensures UrlEncode(b) == MapSeq(Sextets(b), UrlCharOf)
    ensures UrlSegment(UrlEncode(b))
  {
    var sx := Sextets(b);
    var body := MapSeq(sx, CharOf);
    var pad := Padding(|b|);
    assert Encode(b) == body + pad;
    MapSeqConcat(body, pad, ToUrl);
    ToUrlOfChars(sx);
    var x := MapSeq(body, ToUrl);
    assert x == [] || x[|x| - 1] != '=' by {
      MapSeqAt(sx, UrlCharOf);
    }
    assert MapSeq(pad, ToUrl) == pad;
    TrimPaddingOf(x, pad);
    UrlCharsSegment(sx);
  }

  /** Decoding an encoding gives the bytes back. */
  lemma UrlDecodeEncode(b: Bytes)
    ensures UrlDecode(UrlEncode(b)) == b
  {
    var sx := Sextets(b);
    UrlEncodeChars(b);
    FromUrlOfUrlChars(sx);
    ValuesOfChars(sx);
    UnsextetsSextets(b);
  }

  // ---- the signing key ----------------------------------------------------------

  const DefaultSecret: string := "change-this-secret-in-production"

  /** `Security::init` as written: `JWT_SECRET` through `Env::get`, which yields `false` (the empty key) when it is set nowhere. */
  function SecretAsWritten(env: Env.State, getenv: string -> Option<string>): string
  {
    ToString(Env.GetAsWritten(env, "JWT_SECRET", Str(DefaultSecret), getenv))
  }

  /** As written, tokens are signed with the empty key when `JWT_SECRET` is set nowhere. */
  lemma UnsetSecretIsEmpty(env: Env.State, getenv: string -> Option<string>)
    requires "JWT_SECRET" !in env.data && getenv("JWT_SECRET").None?
    ensures SecretAsWritten(env, getenv) == ""
  {
  }

  /** `Security::init` as intended: `JWT_SECRET` from the `.env` data or the environment, else the built-in default. */
  function Secret(env: Env.State, getenv: string -> Option<string>): (key: string)
    ensures "JWT_SECRET" in env.data ==> key == env.data["JWT_SECRET"]
    ensures "JWT_SECRET" !in env.data && getenv("JWT_SECRET").Some? ==> key == getenv("JWT_SECRET").value
    ensures "JWT_SECRET" !in env.data && getenv("JWT_SECRET").None? ==> key == DefaultSecret
  {
    ToString(Env.Get(env, "JWT_SECRET", Str(DefaultSecret), getenv))
  }

  // ---- tokens -------------------------------------------------------------------

  /**
   * What the token code uses without modelling it: `hash_hmac('sha256', $message,
   * $key, true)` and `json_encode` / `json_decode(..., true)`.
   */
  datatype Primitives = Primitives(
    hmac: (string, string) -> Bytes,
    jsonEncode: Value -> Bytes,
    jsonDecode: Bytes -> Value)

  /** The fixed JOSE header `{"typ":"JWT","alg":"HS256"}`. */
  const Header: Value := Arr([(StrKey("typ"), Str("JWT")), (StrKey("alg"), Str("HS256"))])

  const IatKey: Key := StrKey("iat")
  const ExpKey: Key := StrKey("exp")

  /**
   * The claims `generateToken` signs: the caller's payload with `iat` set to
   * the first clock reading and `exp` to the second reading plus the lifetime.
   */
  function Claims(payload: Entries, issuedAt: int, expiryClock: int, expiresIn: int): (c: Entries)
    ensures Get(c, IatKey) == Int(issuedAt)
    ensures Get(c, ExpKey) == Int(expiryClock + expiresIn)
    ensures forall k :: k != IatKey && k != ExpKey ==> Get(c, k) == Get(payload, k)
  {
    var withIat := Set(payload, IatKey, Int(issuedAt));
    GetSet(payload, IatKey, Int(issuedAt), ExpKey);
    GetSet(withIat, ExpKey, Int(expiryClock + expiresIn), IatKey);
    forall k | k != IatKey && k != ExpKey
      ensures Get(Set(withIat, ExpKey, Int(expiryClock + expiresIn)), k) == Get(payload, k)
    {
      GetSet(payload, IatKey, Int(issuedAt), k);
      GetSet(withIat, ExpKey, Int(expiryClock + expiresIn), k);
    }
    Set(withIat, ExpKey, Int(expiryClock + expiresIn))
  }

  /** A base64url encoding is one segment of a token: it holds no `.`. */
  lemma UrlEncodeDotFree(b: Bytes)
    ensures UrlSegment(UrlEncode(b)) && '.' !in UrlEncode(b)
  {
    UrlEncodeChars(b);
    var u := UrlEncode(b);
    assert forall i :: 0 <= i < |u| ==> u[i] != '.';
  }

  /** The signature segment for a header and payload segment under `secret`. */
  function Signature(prims: Primitives, secret: string, header: string, payload: string): string
  {
    UrlEncode(prims.hmac(secret, header + "." + payload))
  }

  /**
   * `generateToken($payload, $expiresIn)`. The source reads the clock twice,
   * once for `iat` and once for `exp`; the two readings are parameters.
   */
  function GenerateToken(prims: Primitives, secret: string, payload: Entries,
                         issuedAt: int, expiryClock: int, expiresIn: int): string
  {
    var h := UrlEncode(prims.jsonEncode(Header));
    var p := UrlEncode(prims.jsonEncode(Arr(Claims(payload, issuedAt, expiryClock, expiresIn))));
    h + "." + p + "." + Signature(prims, secret, h, p)
  }

  /** `$payload['exp']`; `None` where PHP 8 raises an error instead (a string payload). */
  function ExpiryOf(payload: Value): Option<Value>
  {
    match payload
    case Arr(e) => Some(Get(e, ExpKey))
    case Str(_) => None
    case _ => Some(Null)
  }

  /**
   * `verifyToken($token)` at clock reading `now`: the payload when the token has
   * three segments, its signature segment is the one recomputed over the first
   * two, and its `exp` is not below `now` (PHP's loose comparison); otherwise null.
   */
  function VerifyToken(prims: Primitives, secret: string, token: string, now: int): (r: Option<Value>)
    ensures |Split(token, '.')| != 3 ==> r == None
    ensures |Split(token, '.')| == 3 && Split(token, '.')[2] != Signature(prims, secret, Split(token, '.')[0], Split(token, '.')[1]) ==> r == None
    ensures r.Some? ==> r.value == prims.jsonDecode(UrlDecode(Split(token, '.')[1]))
    ensures r.Some? ==> ExpiryOf(r.value).Some? && !LessThanInt(ExpiryOf(r.value).value, now)
    ensures var parts := Split(token, '.');
      |parts| == 3 && parts[2] == Signature(prims, secret, parts[0], parts[1]) ==>
        var payload := prims.jsonDecode(UrlDecode(parts[1]));
        ExpiryOf(payload).Some? && !LessThanInt(ExpiryOf(payload).value, now) ==> r == Some(payload)
  {
    var parts := Split(token, '.');
    if |parts| != 3 then None
    else if parts[2] != Signature(prims, secret, parts[0], parts[1]) then None
    else
      var payload := prims.jsonDecode(UrlDecode(parts[1]));
      match ExpiryOf(payload)
      case None => None
      case Some(exp) => if LessThanInt(exp, now) then None else Some(payload)
  }

  /** A generated token is three `.`-separated base64url segments, the last signing the first two. */
  lemma GenerateTokenSegments(prims: Primitives, secret: string, payload: Entries,
                              issuedAt: int, expiryClock: int, expiresIn: int)
    ensures var token := GenerateToken(prims, secret, payload, issuedAt, expiryClock, expiresIn);
      var parts := Split(token, '.');
      && |parts| == 3
      && parts[0] == UrlEncode(prims.jsonEncode(Header))
      && parts[1] == UrlEncode(prims.jsonEncode(Arr(Claims(payload, issuedAt, expiryClock, expiresIn))))
      && parts[2] == Signature(prims, secret, parts[0], parts[1])
      && UrlSegment(parts[0]) && UrlSegment(parts[1]) && UrlSegment(parts[2])
  {
    var h := UrlEncode(prims.jsonEncode(Header));
    var p := UrlEncode(prims.jsonEncode(Arr(Claims(payload, issuedAt, expiryClock, expiresIn))));
    var s := Signature(prims, secret, h, p);
    UrlEncodeDotFree(prims.jsonEncode(Header));
    UrlEncodeDotFree(prims.jsonEncode(Arr(Claims(payload, issuedAt, expiryClock, expiresIn))));
    UrlEncodeDotFree(prims.hmac(secret, h + "." + p));
    SplitThree(h, p, s);
  }

  /** Three base64url segments joined by `.` split back into those segments. */
  lemma SplitThree(h: string, p: string, s: string)
    requires '.' !in h && '.' !in p && '.' !in s
    ensures Split(h + "." + p + "." + s, '.') == [h, p, s]
  {
    SplitNoDelimiter(s, '.');
    SplitAtDelimiter(p, s, '.');
    SplitAtDelimiter(h, p + "." + s, '.');
    assert h + "." + p + "." + s == h + ['.'] + (p + ['.'] + s);
  }

  /**
   * A token fresh from `generateToken` verifies with the same secret, giving
   * back its claims, exactly while `exp` (the second clock reading plus the
   * lifetime) is not below `now`; the JSON codec is assumed to round-trip the claims.
   */
  lemma VerifyGenerated(prims: Primitives, secret: string, payload: Entries,
                        issuedAt: int, expiryClock: int, expiresIn: int, now: int)
    requires var c := Arr(Claims(payload, issuedAt, expiryClock, expiresIn));
      prims.jsonDecode(prims.jsonEncode(c)) == c
    ensures VerifyToken(prims, secret, GenerateToken(prims, secret, payload, issuedAt, expiryClock, expiresIn), now)
      == if expiryClock + expiresIn < now then None else Some(Arr(Claims(payload, issuedAt, expiryClock, expiresIn)))
  {
    var c := Arr(Claims(payload, issuedAt, expiryClock, expiresIn));
    GenerateTokenSegments(prims, secret, payload, issuedAt, expiryClock, expiresIn);
    UrlDecodeEncode(prims.jsonEncode(c));
  }

  /** `generateToken($payload)` without a lifetime: tokens last a day. */
  const DefaultExpiresIn: int := 86400

  /**
   * With the default lifetime, a token made with the clock reading `t` is
   * accepted exactly until `t + 86400`, when the JSON codec round-trips its claims.
   */
  lemma DefaultLifetime(prims: Primitives, secret: string, payload: Entries, t: int, now: int)
    requires var c := Arr(Claims(payload, t, t, DefaultExpiresIn));
      prims.jsonDecode(prims.jsonEncode(c)) == c
    ensures VerifyToken(prims, secret, GenerateToken(prims, secret, payload, t, t, DefaultExpiresIn), now).Some?
      <==> now <= t + 86400
  {
    VerifyGenerated(prims, secret, payload, t, t, DefaultExpiresIn, now);
  }

  /**
   * A token is accepted only with the signature recomputed over its own header
   * and payload segments: any other third segment is rejected, for every header,
   * payload and clock reading.
   */
  lemma ForgedSignatureRejected(prims: Primitives, secret: string, h: string, p: string, forged: string, now: int)
    requires UrlSegment(h) && UrlSegment(p)
    requires forged != Signature(prims, secret, h, p)
    ensures VerifyToken(prims, secret, h + "." + p + "." + forged, now) == None
  {
    assert '.' !in h && '.' !in p;
    if '.' !in forged {
      SplitThree(h, p, forged);
    } else {
      var k :| 0 <= k < |forged| && forged[k] == '.';
      SplitFourOrMore(h, p, forged, k);
    }
  }

  /** A `.` inside the last segment adds a fourth segment. */
  lemma SplitFourOrMore(h: string, p: string, s: string, k: nat)
    requires '.' !in h && '.' !in p
    requires k < |s| && s[k] == '.'
    ensures |Split(h + "." + p + "." + s, '.')| > 3
  {
    var i := IndexOf(s, '.').value;
    SplitAtDelimiter(s[..i], s[i + 1..], '.');
    assert s == s[..i] + ['.'] + s[i + 1..];
    SplitAtDelimiter(p, s, '.');
    SplitAtDelimiter(h, p + "." + s, '.');
    assert h + "." + p + "." + s == h + ['.'] + (p + ['.'] + s);
  }

  /** A token whose `exp` claim is an integer below `now` is rejected, whatever its signature. */
  lemma ExpiredRejected(prims: Primitives, secret: string, token: string, now: int)
    requires |Split(token, '.')| == 3
    requires var payload := prims.jsonDecode(UrlDecode(Split(token, '.')[1]));
      payload.Arr? && Get(payload.entries, ExpKey).Int? && Get(payload.entries, ExpKey).n < now
    ensures VerifyToken(prims, secret, token, now) == None
  {
  }

  /** PHP's comparison lets a token without an `exp` claim through only at clock reading 0, and one whose `exp` is an array always. */
  lemma LooseExpiry(prims: Primitives, secret: string, token: string, now: int)
    requires |Split(token, '.')| == 3
    requires Split(token, '.')[2] == Signature(prims, secret, Split(token, '.')[0], Split(token, '.')[1])
    requires prims.jsonDecode(UrlDecode(Split(token, '.')[1])).Arr?
    ensures var e := prims.jsonDecode(UrlDecode(Split(token, '.')[1])).entries;
      && (Get(e, ExpKey) == Null ==> (VerifyToken(prims, secret, token, now).Some? <==> now == 0))
      && (Get(e, ExpKey).Arr? ==> VerifyToken(prims, secret, token, now).Some?)
  {
  }
}

=== FILE: seqs.dfy ===
/**
 * Generic sequence helpers standing in for PHP's `implode`, `explode`,
 * `substr_count`-style counting and character filtering.
 */
module Seqs {
  import opened Wrappers

  /** Number of occurrences of `x` in `s`. */
  function Count<T(==)>(s: seq<T>, x: T): nat
  {
    if s == [] then 0 else (if s[0] == x then 1 else 0) + Count(s[1..], x)
  }

  lemma {:induction false} CountConcat<T>(a: seq<T>, b: seq<T>, x: T)
    ensures Count(a + b, x) == Count(a, x) + Count(b, x)
  {
    if a == [] {
      assert a + b == b;
    } else {
      assert (a + b)[1..] == a[1..] + b;
      CountConcat(a[1..], b, x);
    }
  }

  lemma {:induction false} CountAbsent<T>(s: seq<T>, x: T)
    requires x !in s
    ensures Count(s, x) == 0
  {
    if s != [] {
      CountAbsent(s[1..], x);
    }
  }

  /** The elements of `s` that satisfy `keep`, in order (PHP's `preg_replace('/[^...]/', '', s)`). */
  function Filter<T>(s: seq<T>, keep: T -> bool): (r: seq<T>)
    ensures |r| <= |s|
    ensures forall i :: 0 <= i < |r| ==> keep(r[i])
  {
    if s == [] then []
    else if keep(s[0]) then [s[0]] + Filter(s[1..], keep)
    else Filter(s[1..], keep)
  }

  lemma {:induction false} FilterConcat<T>(a: seq<T>, b: seq<T>, keep: T -> bool)
    ensures Filter(a + b, keep) == Filter(a, keep) + Filter(b, keep)
  {
    if a == [] {
      assert a + b == b;
    } else {
      assert (a + b)[1..] == a[1..] + b;
      FilterConcat(a[1..], b, keep);
    }
  }

  /** Filtering keeps a sequence whose every element already passes. */
  lemma {:induction false} FilterKeepsAll<T>(s: seq<T>, keep: T -> bool)
    requires forall i :: 0 <= i < |s| ==> keep(s[i])
    ensures Filter(s, keep) == s
  {
    if s != [] {
      FilterKeepsAll(s[1..], keep);
    }
  }

  /** Filtering removes every element that fails. */
  lemma {:induction false} FilterDropsAll<T>(s: seq<T>, keep: T -> bool)
    requires forall i :: 0 <= i < |s| ==> !keep(s[i])
    ensures Filter(s, keep) == []
  {
    if s != [] {
      FilterDropsAll(s[1..], keep);
    }
  }

  /** Applies `f` to every element. */
  function MapSeq<A, B>(s: seq<A>, f: A -> B): (r: seq<B>)
    ensures |r| == |s|
  {
    if s == [] then [] else [f(s[0])] + MapSeq(s[1..], f)
  }

  /** Element `i` of the mapped sequence is `f` of element `i`. */
  lemma {:induction false} MapSeqAt<A, B>(s: seq<A>, f: A -> B)
    ensures forall i :: 0 <= i < |s| ==> MapSeq(s, f)[i] == f(s[i])
  {
    if s != [] {
      MapSeqAt(s[1..], f);
      assert forall i :: 1 <= i < |s| ==> MapSeq(s, f)[i] == MapSeq(s[1..], f)[i - 1];
    }
  }

  /** Mapping distributes over concatenation. */
  lemma {:induction false} MapSeqConcat<A, B>(a: seq<A>, b: seq<A>, f: A -> B)
    ensures MapSeq(a + b, f) == MapSeq(a, f) + MapSeq(b, f)
  {
    if a != [] {
      MapSeqConcat(a[1..], b, f);
      assert (a + b)[0] == a[0];
      assert (a + b)[1..] == a[1..] + b;
      assert MapSeq(a + b, f) == [f(a[0])] + MapSeq(a[1..] + b, f);
    } else {
      assert a + b == b;
    }
  }

  /** A non-empty sequence is its front followed by its last element. */
  lemma FrontLast<T>(s: seq<T>)
    requires |s| >= 1
    ensures s[..|s| - 1] + [s[|s| - 1]] == s
  {
  }

  /** A sequence one longer than `s`, agreeing with it on `s`'s positions, is `s` with its last element appended. */
  lemma SnocOf<T>(s: seq<T>, t: seq<T>)
    requires |t| == |s| + 1 && t[..|s|] == s
    ensures t == s + [t[|s|]]
  {
  }

  /** Mapping a non-empty sequence maps its head, then its tail. */
  lemma MapSeqCons<A, B>(s: seq<A>, f: A -> B)
    requires s != []
    ensures MapSeq(s, f) == [f(s[0])] + MapSeq(s[1..], f)
  {
  }

  /** PHP's `implode(sep, parts)`. */
  function Join<T>(parts: seq<seq<T>>, sep: seq<T>): seq<T>
  {
    if |parts| == 0 then []
    else if |parts| == 1 then parts[0]
    else parts[0] + sep + Join(parts[1..], sep)
  }

  /** Joining parts that each hold `x` exactly once, with a separator free of `x`, holds one `x` per part. */
  lemma {:induction false} CountJoin<T>(parts: seq<seq<T>>, sep: seq<T>, x: T)
    requires x !in sep
    requires forall i :: 0 <= i < |parts| ==> Count(parts[i], x) == 1
    ensures Count(Join(parts, sep), x) == |parts|
  {
    if |parts| > 1 {
      CountJoin(parts[1..], sep, x);
      CountConcat(parts[0] + sep, Join(parts[1..], sep), x);
      CountConcat(parts[0], sep, x);
      CountAbsent(sep, x);
    }
  }

  /** An empty last part adds one trailing separator. */
  lemma {:induction false} JoinSnocEmpty<T>(parts: seq<seq<T>>, sep: seq<T>)
    requires |parts| >= 1
    ensures Join(parts + [[]], sep) == Join(parts, sep) + sep
  {
    var ps := parts + [[]];
    assert ps[0] == parts[0];
    if |parts| == 1 {
      assert ps[1..] == [[]];
      assert parts[0] + sep + [] == parts[0] + sep;
    } else {
      assert ps[1..] == parts[1..] + [[]];
      JoinSnocEmpty(parts[1..], sep);
      assert parts[0] + sep + (Join(parts[1..], sep) + sep) == (parts[0] + sep + Join(parts[1..], sep)) + sep;
    }
  }

  /** Joining parts free of `x`, with a separator free of `x`, yields no `x`. */
  lemma {:induction false} JoinAbsent<T>(parts: seq<seq<T>>, sep: seq<T>, x: T)
    requires x !in sep
    requires forall i :: 0 <= i < |parts| ==> x !in parts[i]
    ensures x !in Join(parts, sep)
  {
    if |parts| > 1 {
      JoinAbsent(parts[1..], sep, x);
    }
  }

  /** PHP's `explode(d, s)` with a one-element delimiter: the maximal `d`-free runs of `s`. */
  function Split<T(==)>(s: seq<T>, d: T): (r: seq<seq<T>>)
    ensures |r| >= 1
    ensures forall i :: 0 <= i < |r| ==> d !in r[i]
  {
    if s == [] then [[]]
    else
      var rest := Split(s[1..], d);
      if s[0] == d then [[]] + rest
      else [[s[0]] + rest[0]] + rest[1..]
  }

  /** Joining the pieces with the delimiter gives the original back. */
  lemma {:induction false} JoinSplit<T>(s: seq<T>, d: T)
    ensures Join(Split(s, d), [d]) == s
  {
    if s != [] {
      JoinSplit(s[1..], d);
      var rest := Split(s[1..], d);
      assert s == [s[0]] + s[1..];
      if s[0] == d {
        var r := [[]] + rest;
        assert r[1..] == rest;
        assert Join(r, [d]) == [] + [d] + Join(rest, [d]);
      } else {
        var r := [[s[0]] + rest[0]] + rest[1..];
        if |rest| > 1 {
          assert r[1..] == rest[1..];
          assert Join(r, [d]) == ([s[0]] + rest[0]) + [d] + Join(rest[1..], [d]);
          assert Join(rest, [d]) == rest[0] + [d] + Join(rest[1..], [d]);
        }
      }
    }
  }

  /** A `d`-free sequence splits into itself. */
  lemma {:induction false} SplitNoDelimiter<T>(s: seq<T>, d: T)
    requires d !in s
    ensures Split(s, d) == [s]
  {
    if s != [] {
      SplitNoDelimiter(s[1..], d);
      assert [s[0]] + s[1..] == s;
    }
  }

  /** Splitting at a first delimiter peels off the `d`-free head. */
  lemma {:induction false} SplitAtDelimiter<T>(a: seq<T>, b: seq<T>, d: T)
    requires d !in a
    ensures Split(a + [d] + b, d) == [a] + Split(b, d)
  {
    if a == [] {
      assert (a + [d] + b)[1..] == b;
    } else {
      assert (a + [d] + b)[1..] == a[1..] + [d] + b;
      SplitAtDelimiter(a[1..], b, d);
      assert [a[0]] + a[1..] == a;
    }
  }

  /** Split inverts Join when no part holds the delimiter. */
  lemma {:induction false} SplitJoin<T>(parts: seq<seq<T>>, d: T)
    requires |parts| >= 1
    requires forall i :: 0 <= i < |parts| ==> d !in parts[i]
    ensures Split(Join(parts, [d]), d) == parts
  {
    if |parts| == 1 {
      SplitNoDelimiter(parts[0], d);
    } else {
      SplitJoin(parts[1..], d);
      SplitAtDelimiter(parts[0], Join(parts[1..], [d]), d);
      assert parts == [parts[0]] + parts[1..];
    }
  }

  /** A trailing delimiter splits off one final empty part. */
  lemma SplitJoinTrailing<T>(parts: seq<seq<T>>, d: T)
    requires |parts| >= 1
    requires forall i :: 0 <= i < |parts| ==> d !in parts[i]
    ensures Split(Join(parts, [d]) + [d], d) == parts + [[]]
  {
    JoinSnocEmpty(parts, [d]);
    var ps := parts + [[]];
    assert forall i :: 0 <= i < |ps| ==> d !in ps[i];
    SplitJoin(ps, d);
  }

  /** Index of the first occurrence of `x` in `s`, if any. */
  function IndexOf<T(==)>(s: seq<T>, x: T): (r: Option<nat>)
    ensures r.None? <==> x !in s
    ensures r.Some? ==> r.value < |s| && s[r.value] == x && x !in s[..r.value]
  {
    if s == [] then None
    else if s[0] == x then Some(0)
    else
      match IndexOf(s[1..], x)
      case None => None
      case Some(i) =>
        assert s[..i + 1] == [s[0]] + s[1..][..i];
        Some(i + 1)
  }

  /** The first occurrence of `x` is where `x` stands with no earlier `x`. */
  lemma IndexOfAt<T>(s: seq<T>, i: nat, x: T)
    requires i < |s| && s[i] == x && x !in s[..i]
    ensures IndexOf(s, x) == Some(i)
  {
  }

  /** `pat` stands in `s` starting at index `j`. */
  predicate OccursAt<T(==)>(s: seq<T>, pat: seq<T>, j: nat)
  {
    j + |pat| <= |s| && s[j..j + |pat|] == pat
  }

  /** A marker placed after marker-free text is found right there. */
  lemma IndexAfter<T>(pre: seq<T>, x: T, post: seq<T>)
    requires x !in pre
    ensures IndexOf(pre + [x] + post, x) == Some(|pre|)
  {
    var s := pre + [x] + post;
    assert s[..|pre|] == pre;
    IndexOfAt(s, |pre|, x);
  }

  /** Start of the first occurrence of the non-empty pattern `pat` in `s` at or after `k`, if any. */
  function FindFrom<T(==)>(s: seq<T>, pat: seq<T>, k: nat): (r: Option<nat>)
    requires pat != []
    ensures r.Some? ==> k <= r.value && OccursAt(s, pat, r.value)
    ensures r.Some? ==> forall j :: k <= j < r.value ==> !OccursAt(s, pat, j)
    ensures r.None? ==> forall j :: k <= j ==> !OccursAt(s, pat, j)
    decreases |s| - k
  {
    if k + |pat| > |s| then None
    else if s[k..k + |pat|] == pat then Some(k)
    else FindFrom(s, pat, k + 1)
  }

  /** Start of the first occurrence of the non-empty pattern `pat` in `s`, if any. */
  function Find<T(==)>(s: seq<T>, pat: seq<T>): (r: Option<nat>)
    requires pat != []
    ensures r.Some? ==> OccursAt(s, pat, r.value)
    ensures r.Some? ==> forall j :: 0 <= j < r.value ==> !OccursAt(s, pat, j)
    ensures r.None? ==> forall j :: 0 <= j ==> !OccursAt(s, pat, j)
  {
    FindFrom(s, pat, 0)
  }

  /** An occurrence with no earlier occurrence is the one Find reports. */
  lemma FindAt<T>(s: seq<T>, pat: seq<T>, i: nat)
    requires pat != [] && OccursAt(s, pat, i)
    requires forall j :: 0 <= j < i ==> !OccursAt(s, pat, j)
    ensures Find(s, pat) == Some(i)
  {
  }

  /** Text after the first occurrence cannot move it. */
  lemma FindPrefix<T>(a: seq<T>, pat: seq<T>, b: seq<T>)
    requires pat != [] && Find(a + pat, pat) == Some(|a|)
    ensures Find(a + pat + b, pat) == Some(|a|)
  {
    var s := a + pat + b;
    assert OccursAt(s, pat, |a|) by { assert s[|a|..|a| + |pat|] == pat; }
    forall j | 0 <= j < |a|
      ensures !OccursAt(s, pat, j)
    {
      assert !OccursAt(a + pat, pat, j);
      assert s[j..j + |pat|] == (a + pat)[j..j + |pat|];
    }
    FindAt(s, pat, |a|);
  }

  /** Splits `s` at every occurrence of the non-empty separator `sep`, left to right. */
  function SplitOn<T(==)>(s: seq<T>, sep: seq<T>): (r: seq<seq<T>>)
    requires sep != []
    ensures |r| >= 1
    decreases |s|
  {
    match Find(s, sep)
    case None => [s]
    case Some(i) => [s[..i]] + SplitOn(s[i + |sep|..], sep)
  }

  /**
   * SplitOn inverts Join when each part but the last first meets the separator at
   * its own end, and the last part holds no separator.
   */
  lemma {:induction false} SplitOnJoin<T>(parts: seq<seq<T>>, sep: seq<T>)
    requires sep != [] && |parts| >= 1
    requires forall i :: 0 <= i < |parts| - 1 ==> Find(parts[i] + sep, sep) == Some(|parts[i]|)
    requires Find(parts[|parts| - 1], sep) == None
    ensures SplitOn(Join(parts, sep), sep) == parts
  {
    if |parts| > 1 {
      var rest := Join(parts[1..], sep);
      var s := parts[0] + sep + rest;
      assert Join(parts, sep) == s;
      FindPrefix(parts[0], sep, rest);
      assert s[..|parts[0]|] == parts[0];
      assert s[|parts[0]| + |sep|..] == rest;
      SplitOnJoin(parts[1..], sep);
      assert parts == [parts[0]] + parts[1..];
    }
  }

  predicate StartsWith<T(==)>(s: seq<T>, prefix: seq<T>)
  {
    |prefix| <= |s| && s[..|prefix|] == prefix
  }

}

=== FILE: text.dfy ===
/**
 * Character classes and the string primitives of PHP that the core relies on:
 * `trim`, ASCII `strtoupper`, and integer <-> decimal-string conversion.
 */
module Text {
  import opened Wrappers
  import Seqs

  /** `[A-Za-z0-9_]`: the characters kept in table, column and order-by names. */
  predicate IsIdentChar(c: char)
  {
    ('a' <= c <= 'z') || ('A' <= c <= 'Z') || ('0' <= c <= '9') || c == '_'
  }

  /** `[A-Za-z0-9_.*]`: the characters kept in a select-list entry. */
  predicate IsSelectChar(c: char)
  {
    IsIdentChar(c) || c == '.' || c == '*'
  }

  predicate IsDigit(c: char)
  {
    '0' <= c <= '9'
  }

  /** The characters PHP's `trim` removes by default: space, tab, LF, CR, NUL and vertical tab. */
  predicate IsTrimChar(c: char)
  {
    c == ' ' || c == '\t' || c == '\n' || c == '\r' || c == '\0' || c == '\U{000B}'
  }

  predicate AllTrimChars(s: string)
  {
    forall i :: 0 <= i < |s| ==> IsTrimChar(s[i])
  }

  /** Has no trim character at either end. */
  predicate Trimmed(s: string)
  {
    s == [] || (!IsTrimChar(s[0]) && !IsTrimChar(s[|s| - 1]))
  }

  function TrimLeft(s: string): (r: string)
    ensures r == [] || !IsTrimChar(r[0])
    ensures |r| <= |s| && r == s[|s| - |r|..]
    ensures AllTrimChars(s[..|s| - |r|])
  {
    if s != [] && IsTrimChar(s[0]) then TrimLeft(s[1..]) else s
  }

  function TrimRight(s: string): (r: string)
    ensures r == [] || !IsTrimChar(r[|r| - 1])
    ensures |r| <= |s| && r == s[..|r|]
    ensures AllTrimChars(s[|r|..])
    ensures s != [] && !IsTrimChar(s[0]) ==> r != []
  {
    if s != [] && IsTrimChar(s[|s| - 1]) then
      var r := TrimRight(s[..|s| - 1]);
      assert s[|r|..] == s[..|s| - 1][|r|..] + [s[|s| - 1]];
      r
    else s
  }

  /** PHP's `trim(s)`: drops trim characters from both ends and keeps the middle. */
  function Trim(s: string): (r: string)
    ensures Trimmed(r)
    ensures |r| <= |s|
  {
    TrimRight(TrimLeft(s))
  }

  lemma {:induction false} TrimLeftOf(a: string, r: string)
    requires AllTrimChars(a)
    requires r == [] || !IsTrimChar(r[0])
    ensures TrimLeft(a + r) == r
  {
    if a != [] {
      assert (a + r)[1..] == a[1..] + r;
      TrimLeftOf(a[1..], r);
    }
  }

  lemma {:induction false} TrimRightOf(r: string, b: string)
    requires AllTrimChars(b)
    requires r == [] || !IsTrimChar(r[|r| - 1])
    ensures TrimRight(r + b) == r
  {
    if b != [] {
      assert (r + b)[..|r + b| - 1] == r + b[..|b| - 1];
      TrimRightOf(r, b[..|b| - 1]);
    }
  }

  /** Trim recovers any trimmed string from any padding of trim characters around it. */
  lemma TrimPadded(a: string, r: string, b: string)
    requires AllTrimChars(a) && AllTrimChars(b)
    requires Trimmed(r)
    ensures Trim(a + r + b) == r
  {
    if r == [] {
      assert a + r + b == (a + b) + [];
      TrimLeftOf(a + b, []);
    } else {
      assert a + r + b == a + (r + b);
      TrimLeftOf(a, r + b);
      TrimRightOf(r, b);
    }
  }

  /** ASCII upper-casing of one character (`strtoupper` is locale-insensitive ASCII since PHP 8.2). */
  function UpperChar(c: char): char
  {
    if 'a' <= c <= 'z' then (c as int - 32) as char else c
  }

  function ToUpper(s: string): (r: string)
    ensures |r| == |s|
    ensures forall i :: 0 <= i < |s| ==> r[i] == UpperChar(s[i])
  {
    Seqs.MapSeqAt(s, UpperChar);
    Seqs.MapSeq(s, UpperChar)
  }

  /** `strtoupper(s) === "DESC"` holds exactly for the sixteen case variants of "desc". */
  lemma UpperIsDesc(s: string)
    ensures ToUpper(s) == "DESC" <==>
      |s| == 4 && s[0] in "dD" && s[1] in "eE" && s[2] in "sS" && s[3] in "cC"
  {
    if ToUpper(s) == "DESC" {
      assert UpperChar(s[0]) == 'D' && UpperChar(s[1]) == 'E';
      assert UpperChar(s[2]) == 'S' && UpperChar(s[3]) == 'C';
    }
  }

  function DigitChar(d: nat): char
    requires d < 10
  {
    ('0' as int + d) as char
  }

  /** Decimal digits of `n`, most significant first, with no leading zero. */
  function NatToString(n: nat): (r: string)
    ensures |r| >= 1
    ensures forall i :: 0 <= i < |r| ==> IsDigit(r[i])
    ensures |r| > 1 ==> r[0] != '0'
  {
    if n < 10 then [DigitChar(n)] else NatToString(n / 10) + [DigitChar(n % 10)]
  }

  /** PHP's `(string)$i`: decimal, with a leading '-' for negative values. */
  function IntToString(i: int): (r: string)
    ensures |r| >= 1
    ensures forall k :: 0 <= k < |r| ==> IsDigit(r[k]) || (k == 0 && r[k] == '-')
  {
    if i < 0 then "-" + NatToString(-i) else NatToString(i)
  }

  /** Value of a string of decimal digits. */
  function DigitsValue(s: string): nat
    requires forall i :: 0 <= i < |s| ==> IsDigit(s[i])
  {
    if s == [] then 0
    else
      assert IsDigit(s[|s| - 1]);
      DigitsValue(s[..|s| - 1]) * 10 + (s[|s| - 1] as int - '0' as int)
  }

  predicate AllDigits(s: string)
  {
    forall i :: 0 <= i < |s| ==> IsDigit(s[i])
  }

  /** Reads an integer written as `-?[0-9]+`; anything else is None. */
  function ParseInt(s: string): (r: Option<int>)
    ensures r.Some? <==> (|s| >= 1 && AllDigits(s)) || (|s| >= 2 && s[0] == '-' && AllDigits(s[1..]))
  {
    if |s| >= 1 && AllDigits(s) then Some(DigitsValue(s))
    else if |s| >= 2 && s[0] == '-' && AllDigits(s[1..]) then Some(0 - DigitsValue(s[1..]) as int)
    else None
  }

  lemma {:induction false} DigitsOfNat(n: nat)
    ensures DigitsValue(NatToString(n)) == n
  {
    if n >= 10 {
      DigitsOfNat(n / 10);
      var s := NatToString(n);
      assert s[..|s| - 1] == NatToString(n / 10);
    }
  }

  /** Parsing the decimal rendering of any integer gives the integer back. */
  lemma ParseIntToString(i: int)
    ensures ParseInt(IntToString(i)) == Some(i)
  {
    if i < 0 {
      DigitsOfNat(-i);
      assert IntToString(i)[1..] == NatToString(-i);
      assert !IsDigit(IntToString(i)[0]);
    } else {
      DigitsOfNat(i);
    }
  }
}

=== FILE: wrappers.dfy ===
/** Option: the absent-value result used across the model (PHP's `null` returns). */
module Wrappers {

  datatype Option<+T> = None | Some(value: T)
}
